=== FILE: README.md ===
# imanage-me-back: request decisions and store effects

This project models the logic of a small task-management backend that surrounds its library calls. The backend is an Express server over a Prisma database, using JSON Web Tokens and bcrypt. The model covers:

- the session lifecycle kept in each user's single `refreshToken` column: password sign-in, Google sign-in, refresh, sign-out and sign-up;
- the two authentication middleware files, `isAuthAdmin` and `isAuthUser`;
- the way task handlers shape the request body: the priority default and the owner and parent stamping;
- the task service and the task router, including the owner-filtered listing, the status patch and the gate placed in front of each route;
- the profile update.

Every handler and middleware is a pure function. A handler takes the table it reads (users or tasks, as a sequence of rows in table order) and returns the reply it sends together with the table it leaves behind. A middleware returns either a rejection status or "call `next` with this `req.userId`". Library calls are function values passed in (`Oracles`):

- `jwt.sign`/`jwt.verify` are `TokenCodec`;
- bcrypt is `PasswordHasher`;
- Google's `verifyIdToken` is `GoogleVerifier`.

The only properties assumed of them are predicates that lemmas take as hypotheses:

- `Consistent`: a password matches its own hash;
- `Faithful`: a token verifies to the claims it was signed with or fails, only signed tokens verify, and tokens contain no spaces.

The store's generated ids are parameters (`newId`). A create whose id or email is already taken fails the way a unique column does.

Modules follow the source files: `AuthController`, `UserRoutes`, `UserController`, `BearerAuth` (src/middleware/auth.ts), `CookieAuth` (src/middleware/auth.middleware.ts), `TaskController`, `TaskService` and `TaskRoutes`. Supporting modules:

- `Users`: the user table;
- `Credentials`: the password check and registration that both sign-in handlers repeat, defined once here;
- `Session`: lemmas across the auth handlers;
- `JsValues`: JavaScript truthiness and `Number()`;
- `Rows`: first-match and filter searches;
- `Http`, `Oracles`, `Wrappers`: shared types.

The model follows the code in several places where the code does something other than what one would expect. Each is stated in a contract or a lemma:

- The user router's sign-in signs `{ ...user }`. That token carries `id` rather than `userId`, so `isAuthUser` lets it through with `req.userId` undefined (`UserRoutes.SessionTokenCannotUpdateProfile`). The task listing then filters by nothing and returns every user's top-level tasks (`TaskRoutes.SessionTokenListsEveryTopLevelTask`). This is also the only sign-in whose token carries a role, so it is the only one that can pass `isAuthAdmin` (`UserRoutes.SessionTokenAdminIffRole`, `Session.ControllerTokensNeverAdmin`).
- Refresh never rotates the stored token: `AuthController.Refresh` leaves the table unchanged.
- Sign-out clears the stored token without comparing it with the cookie (`Session.SignOutAcceptsStaleToken`).
- A caller whose token carries a `userId` claim becomes the owner of any task it updates (`TaskController.UpdateTakesOwnership`), and delete does not look at the caller at all.
- A caller holding the user router's session token can update any user's task, and the owner stays as it was, because `{ ...body, userId: undefined }` leaves the owner column alone (`TaskRoutes.SessionTokenUpdatesAnyTask`).
- A task priority given as the text "0" is truthy, so it is stored as 0 rather than defaulted to 1 (`TaskController.CreateWithZeroText`).
- The Google sign-in reply carries the user row as read before the new refresh token was written, password column included (`AuthController.GoogleSignIn`).
- The auth controller's sign-up answers 400 for a blank field but does not return. When an email and a password were sent, even empty, it still inserts the account (`AuthController.SignUpBlankNameStillInserts`).

## Model

| member | source | states |
|---|---|---|
| JsValues.ToNumber | src/controllers/task.controller.ts:10 | `Number()` gives a number or NaN; numbers pass unchanged; a falsy value stays falsy; a negative result only comes from a negative number |
| JsValues.DecimalRoundTrip | src/controllers/task.controller.ts:10 | reading the decimal text of any natural number gives that number back |
| JsValues.NumberOfDecimalText | src/controllers/task.controller.ts:10 | a priority sent as the text of a number coerces to that number |
| Users.FindById | src/controllers/auth.controller.ts:119-121 | `findUnique` by id finds a row with that id, and finds nothing exactly when no row has it |
| Users.FindByEmail | src/controllers/auth.controller.ts:24 | `findUnique` by email finds a row with that email, and finds nothing exactly when no row has it |
| Users.FindByIdOfMember | src/controllers/auth.controller.ts:83-86 | in a table with unique ids, looking up a row's id finds that very row |
| Users.Create | src/routes/user.ts:45-52 | an insert succeeds exactly when neither the id nor the email is taken, and then appends exactly that row |
| Users.CreateWf | src/routes/user.ts:45-52 | an insert keeps ids and emails unique |
| Users.Update | src/controllers/user.controller.ts:25-32 | an update fails on an unknown id; otherwise only that row changes, and in it only the supplied columns; password and role are never touched; in a table with unique ids, an update giving an email succeeds exactly when no other row holds that email |
| Users.UpdatePreservesWf | src/controllers/user.controller.ts:25-32 | an update keeps ids and emails unique |
| TaskService.FindTasksByUser | src/services/task.service.ts:3-7 | the result holds exactly the tasks whose owner is the given user, none of them more often than the table does |
| Rows.FilterAppend | src/services/task.service.ts:3-7 | filtering a table grown by one row gives the earlier result followed by that row if it is selected, so results keep the table's order |
| Rows.FilterSubMultiset | src/services/task.service.ts:3-7 | a filter never repeats a row more often than the table holds it |
| TaskService.IntColumn | src/services/task.service.ts:15-23 | the integer column accepts exactly the numbers in the 32-bit signed range, stored unchanged, and refuses every other value |
| TaskService.FindTaskById | src/services/task.service.ts:9-13 | fails with NotFound exactly when no task has the id; otherwise returns a task with that id |
| TaskService.CreateTask | src/services/task.service.ts:15-23 | succeeds exactly when the data has a title, an owner and a priority (if any) that is a 32-bit number, and the id is free; appends one row carrying the supplied data; existing rows are unchanged |
| TaskService.ApplyIdempotent | src/services/task.service.ts:25-33 | writing the same data to a row twice gives the same row as writing it once |
| TaskService.UpdateTask | src/services/task.service.ts:25-33 | fails on an absent id or a priority that is not a 32-bit number; otherwise only that row changes, and in it each of the eight columns takes the supplied value when one is given and keeps its value otherwise |
| TaskService.UpdateTaskIdempotent | src/services/task.service.ts:25-33 | re-submitting the same update gives the same row and the same table |
| TaskService.DeleteTask | src/services/task.service.ts:35-39 | fails exactly on an absent id; on success the table loses one row, keeps every task with another id and gains nothing |
| TaskService.DeleteTaskRemovesId | src/services/task.service.ts:35-39 | in a keyed table, no task with the deleted id remains |
| TaskService.CreateTaskPreservesWf | src/services/task.service.ts:15-23 | an insert keeps task ids unique |
| TaskService.UpdateTaskPreservesWf | src/services/task.service.ts:25-33 | an update keeps task ids unique |
| TaskService.DeleteTaskPreservesWf | src/services/task.service.ts:35-39 | a delete keeps task ids unique |
| BearerAuth.BearerToken | src/middleware/auth.ts:10 | `split(" ")[1]` yields a token exactly when the header exists and contains a space, and the token contains no space |
| BearerAuth.BearerTokenOfHeader | src/middleware/auth.ts:10 | a header `<scheme> <token>` yields exactly `<token>`, whatever follows after another space |
| BearerAuth.IsAuthAdmin | src/middleware/auth.ts:4-32 | 401 exactly when the token is missing or fails verification; 403 exactly when it verifies with a role other than "admin"; `next` otherwise, without setting `req.userId` |
| BearerAuth.IsAuthUser | src/middleware/auth.ts:34-56 | 401 exactly when the token is missing or fails verification; otherwise `next` with `req.userId` equal to the decoded `userId` |
| BearerAuth.AdminImpliesUser | src/middleware/auth.ts:4-56 | a request that passes the admin gate also passes the user gate |
| BearerAuth.SignedTokenGates | src/middleware/auth.ts:20-27 | a verifying signed token passes the admin gate exactly when it was signed with role "admin", and passes the user gate with exactly its signed `userId` |
| BearerAuth.NonAdminClaimsNeverPass | src/middleware/auth.ts:20-25 | no signed token whose claims lack role "admin" ever passes the admin gate |
| CookieAuth.IsAuthAdmin | src/middleware/auth.middleware.ts:8-36 | calls `next` exactly when the bearer token is present, verifies and has role "admin", without setting `req.userId` |
| CookieAuth.AdminGatesAgree | src/middleware/auth.middleware.ts:8-36 | this file's admin gate decides every request the same way as the one in src/middleware/auth.ts |
| CookieAuth.IsAuthUser | src/middleware/auth.middleware.ts:38-62 | 403 exactly when the `accessToken` cookie is missing; 401 exactly when it fails verification; otherwise `next` with the decoded `userId` |
| CookieAuth.UserGateIgnoresHeader | src/middleware/auth.middleware.ts:44-45 | the user gate's decision does not depend on the Authorization header |
| CookieAuth.UserGatesCompared | src/middleware/auth.middleware.ts:47-50 | a missing token gets 403 here and 401 from the header-based gate; once a token is present the two gates decide alike |
| Credentials.CheckPassword | src/controllers/auth.controller.ts:19-34 | the checks run in a fixed order: 400 for a missing field, then 404 exactly for an unknown email, then 401 exactly for a failed compare; success returns the account found by email |
| Credentials.Register | src/routes/user.ts:28-52 | 400 exactly for a missing field or an email already in use; with every field present and the email free, success exactly when the id is free; on success one new row with the hashed password, role "user", and no image or refresh token |
| Credentials.RegisterPreservesWf | src/routes/user.ts:35-52 | registration keeps ids and emails unique |
| Credentials.SignInAfterRegister | src/routes/user.ts:44-87 | given that a password matches its own hash, whoever registers passes the password check with the same email and password |
| AuthController.SignIn | src/controllers/auth.controller.ts:15-48 | 400 exactly for a missing field or an account without a hash; 404 for an unknown email; 401 exactly when the compare fails and 200 exactly when it passes; and the reply is the user without password plus a 1h token with claims exactly {userId, email}; the table is unchanged |
| AuthController.FindOrCreate | src/controllers/auth.controller.ts:67-71 | an existing account is returned and never recreated; for a new email an account is created exactly when the id is free, and the new row has the payload's email, name and picture and no password |
| AuthController.GoogleSignIn | src/controllers/auth.controller.ts:50-106 | 400 (nothing written) for a missing, rejected or email-less id token; on 200 the account's stored refresh token equals the one just issued, no other row changes, and an existing account is not duplicated |
| AuthController.Refresh | src/controllers/auth.controller.ts:108-146 | 401 exactly without a cookie; a new access token exactly when the cookie verifies, names a user, and equals that user's stored token; the table is never written |
| AuthController.SignOut | src/controllers/auth.controller.ts:185-206 | 200 exactly when the cookie verifies and names an existing user; then that user's stored token becomes null and no other row changes; otherwise nothing is written |
| AuthController.SignUp | src/controllers/auth.controller.ts:148-183 | 400 exactly for a blank field or an email in use; 201 exactly when every field is present and the email and id are free; after a 400 the table is what the fall-through leaves (unchanged for an email in use); 500 writes nothing; on 201 one new row with the hashed password and role "user", and the reply omits the password |
| AuthController.InsertAfterBlankField | src/controllers/auth.controller.ts:152-171 | after the 400 for a blank field, the row is still inserted exactly when an email and a password were sent, the email is free and the id is free; otherwise nothing is written |
| AuthController.SignUpBlankNameStillInserts | src/controllers/auth.controller.ts:152-171 | a sign-up with an empty name, a fresh email and a password is answered 400 and creates the account anyway |
| Session.AtMostOneRefreshTokenPerUser | src/controllers/auth.controller.ts:116-126 | in any table, two tokens that both refresh the same user are the same token |
| Session.GoogleSignInReplacesSession | src/controllers/auth.controller.ts:79-86 | after Google sign-in, a token naming that user refreshes only if it is the token just issued, and that token refreshes while it verifies |
| Session.IssuedRefreshTokenWorks | src/controllers/auth.controller.ts:79-126 | with a faithful codec, the refresh token just issued passes refresh as long as it verifies |
| Session.SignOutRevokes | src/controllers/auth.controller.ts:190-197 | after a sign-out, no token naming the signed-out user passes refresh |
| Session.SignOutAcceptsStaleToken | src/controllers/auth.controller.ts:190-197 | a verifying token that differs from the stored one is refused by refresh but still signs out |
| Session.SignUpThenSignIn | src/controllers/auth.controller.ts:15-183 | given that a password matches its own hash, whoever signs up can then sign in with the same email and password |
| Session.ControllerTokensNeverAdmin | src/controllers/auth.controller.ts:36-81 | the controller's access and refresh tokens carry no role, so none passes `isAuthAdmin` |
| UserController.UpdateUser | src/controllers/user.controller.ts:13-44 | only the caller's row changes; name and email change only when given; for a known caller and no failed upload, the update succeeds without an email and, with an email in a table of unique ids, exactly when no other row holds it; imageUrl becomes the upload's URL or else null; password, role and refresh token are untouched; a failure writes nothing |
| UserController.UpdateWithoutFileClearsImage | src/controllers/user.controller.ts:18-30 | an update without a file erases an image the user already had |
| UserRoutes.SignUp | src/routes/user.ts:24-67 | 400 exactly for a missing field or an email in use, with nothing written; 201 exactly when every field is present and the email and id are free; on 201 one new row holding the id, email and name sent, the hashed password and role "user", and the reply holds only id, email and name |
| UserRoutes.SignUpThenSignIn | src/routes/user.ts:24-110 | given that a password matches its own hash, whoever signs up through the user router can then sign in there with the same email and password |
| UserRoutes.SignIn | src/routes/user.ts:69-110 | 400 for a missing field; 404 for an unknown email; 500 exactly for an account without a hash; 401 exactly when the compare fails and 200 exactly when it passes; and the token's claims are the user's columns without the password; the table is unchanged |
| UserRoutes.ListAll | src/routes/user.ts:13-22 | the user list is answered with 200 exactly when `isAuthAdmin` passes |
| UserRoutes.Profile | src/routes/user.ts:112-116 | a rejecting `isAuthUser` answers with its own status and writes nothing; otherwise the update runs for the `req.userId` the gate resolved |
| UserRoutes.SessionTokenAdminIffRole | src/routes/user.ts:89-98 | a verifying session token opens the user list exactly when the user's role is "admin" |
| UserRoutes.SessionTokenCannotUpdateProfile | src/routes/user.ts:89-98 | the session token passes `isAuthUser` with `req.userId` unset, so a profile update with it answers 500 and writes nothing |
| TaskController.CreatePriority | src/controllers/task.controller.ts:10 | a falsy or absent priority becomes 1; a non-zero number is kept; the result is a number or NaN |
| TaskController.Create | src/controllers/task.controller.ts:4-22 | 201 exactly when there is a caller and a title, `Number(priority \|\| 1)` is a 32-bit number and the id is free; the one new row is owned by the caller, stores that number as its priority and the body's title, description, category, status and parent; otherwise 500 and nothing is written |
| TaskController.CreateWithWidePriority | src/controllers/task.controller.ts:8-21 | a priority outside the 32-bit range is refused with 500 and nothing written |
| TaskController.CreateWithDecimalPriority | src/controllers/task.controller.ts:8-14 | a priority sent as the text of a positive 32-bit number is stored as that number |
| TaskController.CreateWithZeroText | src/controllers/task.controller.ts:10 | the priority text "0" is not defaulted, so the stored priority is 0 |
| TaskController.CreateIgnoresBodyOwner | src/controllers/task.controller.ts:14 | the owner named in the body never changes the outcome |
| TaskController.CreateSubtask | src/controllers/task.controller.ts:24-40 | the reply is always 201; a row is written exactly when the insert would succeed, and it has the path's parent, the caller as owner, the body's other columns and priority `Number(priority \|\| 1)` |
| TaskController.CreateSubtaskIgnoresBodyLinks | src/controllers/task.controller.ts:34 | the owner and parent named in the body never change the outcome |
| TaskController.Update | src/controllers/task.controller.ts:42-67 | 200 exactly for an existing id whose priority is absent, 0, or truthy and converts to a 32-bit number; on 200 every body column given is written and the others keep their values, and the owner becomes the caller when one is resolved; a priority of 0 is kept, not defaulted; a truthy priority is converted; a falsy non-zero priority is refused; no other row changes |
| TaskController.UpdateIgnoresBodyOwner | src/controllers/task.controller.ts:55-58 | the owner named in the body never changes the outcome |
| TaskController.UpdateTakesOwnership | src/controllers/task.controller.ts:55-58 | a caller whose token carries a `userId` claim becomes the owner of any existing task it updates |
| TaskController.Delete | src/controllers/task.controller.ts:69-78 | 200 exactly when a task has the path's id, whoever asks; that id is then gone from a keyed table, every task with another id remains, and no task is added or altered; a failure writes nothing |
| TaskRoutes.ListOwn | src/routes/task.ts:23-39 | exactly the caller's top-level tasks, each bundled with exactly the tasks whose parent it is |
| TaskRoutes.PatchStatus | src/routes/task.ts:49-62 | 200 exactly for an existing id; only that task's status column changes |
| TaskRoutes.Route | src/routes/task.ts:13-62 | listing all tasks needs `isAuthAdmin`; list, create, update, delete and subtask-create each need `isAuthUser`, whose rejection writes nothing; the status patch has no gate |
| TaskRoutes.NoTokenNoAccess | src/routes/task.ts:13-47 | without a token every gated route answers 401 and writes nothing |
| TaskRoutes.PatchStatusIgnoresCredentials | src/routes/task.ts:49 | the status patch gives the same answer whatever credentials come with it |
| TaskRoutes.SessionTokenUpdatesAnyTask | src/controllers/task.controller.ts:42-58 | with the user router's session token, an update of any existing task answers 200, writes the new title and leaves the owner unchanged |
| TaskRoutes.SessionTokenListsEveryTopLevelTask | src/routes/task.ts:23-31 | with the user router's session token, the listing holds every user's top-level tasks |

## Left out

- Token signing, verification and expiry are oracles. Time and signatures are not modelled, and the JWT secret and the clock are folded into the `TokenCodec` value.
- bcrypt's salt and timing are not modelled, and neither are the internals of Google's token verification, the image upload to cloud storage, or multer. The upload appears only as its result (`UserController.Upload`).
- Express mechanics are not modelled: cookies as headers, `clearCookie`, and the error raised when a reply is sent twice. Several handlers send an error and then carry on, at src/controllers/auth.controller.ts:56, 113, 153, 160 and 187. For these the model takes the decision the first reply states. The store effect of the fall-through is modelled for sign-up (`AuthController.InsertAfterBlankField`); in the other handlers, the later steps either throw before writing or write what the model already writes.
- AuthController.Refresh: answers 403 on a stale or unknown token. The code at src/controllers/auth.controller.ts:124 calls `res.json(403)`, which actually sends status 200 with body `403` and then throws.
- AuthController.SignUp: the reply after a blank field is the first one sent, 400. The second reply the handler attempts throws and is not modelled. A blank name is inserted as sent, which assumes the name column is nullable.
- TaskController.CreateSubtask: does not model the unhandled promise rejection when the insert fails. The handler does not await the insert.
- JsValues.ToNumber: `Number()` is modelled for numbers, `null`, `""` and strings of decimal digits. Other strings become NaN here, although JavaScript converts some of them: signs, surrounding spaces, decimals, exponents and hex prefixes. Floating-point values and booleans are not modelled.
- Request bodies are modelled only for the seven task columns other than `id`, and for the user fields the handlers read. JSON `null` is modelled for the task priority only. A `null` in any other field is not modelled, and neither are unknown keys that the query engine would reject.
- TaskController.Create: the handler spreads the whole body into the insert (src/controllers/task.controller.ts:9), so a body `id` would choose the new row's id. The model has no `id` in the body and always uses the generated `newId`.
- TaskController.Update: the handler spreads the whole body into the update (src/controllers/task.controller.ts:56), so a body `id` would rename the task. The model has no `id` in the body, and the updated row keeps the path's id.
- TaskService.IntColumn: the priority column is taken to be a 32-bit signed `Int`, which is Prisma's `Int` on its usual databases; the schema file is not part of this model. `status`, `title`, `description` and `category` are taken to be free-text columns that accept any string. The priority column is taken to be non-nullable: an update that sends `null` is refused, which makes `TaskController.Update` answer 500, while a create turns `null` into 1 before the insert.
- The Prisma schema is not part of this model. Task priority and status are `None` where the column default applies, and the default values themselves are not modelled. Google-created users get role "user" as the assumed column default.
- Referential integrity between tasks and users, or between subtasks and parents, is not modelled. Neither is any cascade on delete.
- Multi-phase subtask reconciliation and transactional rollback are not modelled. The task update in src/services/task.service.ts:25-33 writes a single row, and no handler creates subtasks inline.
- Concurrency between requests and the store's transaction isolation are not modelled.
- Server bootstrap (src/server.ts), the auth route wiring (src/routes/auth.ts) and the type alias (src/utils/types.ts) are not modelled. They contain no decision logic.

=== FILE: auth_controller.dfy ===
/**
 * The session handlers of src/controllers/auth.controller.ts as transitions
 * of the user table: password and Google sign-in, refresh, sign-out and
 * sign-up. Each answers a reply and the table it leaves behind.
 */
module AuthController {
  import opened Wrappers
  import opened Oracles
  import opened JsValues
  import opened Users
  import opened Http
  import opened Credentials

  const AccessOptions: SignOptions := SignOptions("1h", None, None)
  const RefreshOptions: SignOptions := SignOptions("7d", None, None)

  /** An access token's payload: `{ userId, email }`. */
  function AccessClaims(userId: Id, email: string): Claims
  {
    NoClaims.(userId := Some(userId), email := Some(email))
  }

  /** A refresh token's payload: `{ userId }`. */
  function RefreshClaims(userId: Id): Claims
  {
    NoClaims.(userId := Some(userId))
  }

  /**
   * `authSignInController`: 400, 404, 401 in that order (400 also when the
   * account has no hash); on success a one-hour access token with exactly
   * the claims `{ userId, email }` and the user without its password. The
   * table is never written.
   */
  function SignIn(users: seq<User>, email: Option<string>, password: Option<string>,
                  codec: TokenCodec, hasher: PasswordHasher): (r: Step<seq<User>>)
    ensures r.store == users
    ensures !Present(email) || !Present(password) ==> r.reply.status == 400
    ensures Present(email) && Present(password) && FindByEmail(users, email.value).None? ==> r.reply.status == 404
    ensures r.reply.status in {200, 400, 401, 404}
    ensures r.reply.status == 400 <==>
      || !Present(email) || !Present(password)
      || (FindByEmail(users, email.value).Some? && FindByEmail(users, email.value).value.password.None?)
    ensures r.reply.status == 401 <==>
      && Present(email) && Present(password)
      && FindByEmail(users, email.value).Some?
      && FindByEmail(users, email.value).value.password.Some?
      && !hasher.compare(password.value, FindByEmail(users, email.value).value.password.value)
    ensures r.reply.status == 200 <==>
      && Present(email) && Present(password)
      && FindByEmail(users, email.value).Some?
      && FindByEmail(users, email.value).value.password.Some?
      && hasher.compare(password.value, FindByEmail(users, email.value).value.password.value)
    ensures r.reply.status == 200 ==>
      && Present(email) && Present(password)
      && var u := FindByEmail(users, email.value).value;
      && u.password.Some? && hasher.compare(password.value, u.password.value)
      && r.reply.body == SignedIn(View(u), codec.sign(AccessClaims(u.id, email.value), AccessOptions))
  {
    match CheckPassword(users, email, password, hasher, 400)
    case Err(status) => Step(Error(status), users)
    case Ok(u) => Step(Reply(200, SignedIn(View(u), codec.sign(AccessClaims(u.id, email.value), AccessOptions))), users)
  }

  /** The account for a verified Google email: the existing row, or a new one without a password. */
  function FindOrCreate(users: seq<User>, email: string, payload: GooglePayload, newId: Id): (r: Result<(User, seq<User>), Rows.StoreError>)
    ensures FindByEmail(users, email).Some? ==> r == Ok((FindByEmail(users, email).value, users))
    ensures FindByEmail(users, email).None? && r.Ok? ==>
      r.value.0 == User(newId, email, None, payload.name, payload.picture, DefaultRole, None)
      && r.value.1 == users + [r.value.0]
    ensures FindByEmail(users, email).None? ==> (r.Ok? <==> FindById(users, newId).None?)
    ensures r.Ok? ==> r.value.0 in r.value.1 && r.value.0.email == email
    ensures r.Ok? && Wf(users) ==> Wf(r.value.1)
  {
    match FindByEmail(users, email)
    case Some(u) => Ok((u, users))
    case None =>
      var u := User(newId, email, None, payload.name, payload.picture, DefaultRole, None);
      match Create(users, u)
      case Err(e) => Err(e)
      case Ok(users') =>
        CreateWf(users, u);
        Ok((u, users'))
  }

  /**
   * `authGoogleSignInController`: 400 when the id token is missing, fails
   * verification or attests no email. Otherwise the account of that email
   * (created on first sign-in) gets a fresh seven-day refresh token written
   * over its stored one; the reply carries the account as read before that
   * write, a one-hour access token and the refresh token.
   */
  function GoogleSignIn(users: seq<User>, idToken: Option<string>, google: GoogleVerifier,
                        codec: TokenCodec, newId: Id): (r: Step<seq<User>>)
    ensures r.reply.status in {200, 400}
    ensures r.reply.status == 400 ==> r.store == users
    ensures r.reply.status == 200 <==>
      Present(idToken) && google(idToken.value).Some? && google(idToken.value).value.email.Some?
      && FindOrCreate(users, google(idToken.value).value.email.value, google(idToken.value).value, newId).Ok?
    ensures r.reply.status == 200 ==>
      var payload := google(idToken.value).value;
      var email := payload.email.value;
      && r.reply.body.GoogleSignedIn?
      && var user := r.reply.body.user;
      && user.email == email
      && (FindByEmail(users, email).Some? ==> user == FindByEmail(users, email).value && |r.store| == |users|)
      && (FindByEmail(users, email).None? ==>
            user == User(newId, email, None, payload.name, payload.picture, DefaultRole, None)
            && |r.store| == |users| + 1)
      && r.reply.body.accessToken == codec.sign(AccessClaims(user.id, email), AccessOptions)
      && r.reply.body.refreshCookie == codec.sign(RefreshClaims(user.id), RefreshOptions)
      && (Wf(users) ==> FindById(r.store, user.id) == Some(user.(refreshToken := Some(r.reply.body.refreshCookie))))
      && (forall j :: 0 <= j < |users| && users[j].id != user.id ==> r.store[j] == users[j])
  {
    if !Present(idToken) then Step(Error(400), users)
    else
      match google(idToken.value)
      case None => Step(Error(400), users)
      case Some(payload) =>
        match payload.email
        case None => Step(Error(400), users)
        case Some(email) =>
          match FindOrCreate(users, email, payload, newId)
          case Err(_) => Step(Error(400), users)
          case Ok((user, users1)) =>
            FindByIdOfMember(users1, user);
            var access := codec.sign(AccessClaims(user.id, user.email), AccessOptions);
            var refresh := codec.sign(RefreshClaims(user.id), RefreshOptions);
            match Update(users1, user.id, UserPatch(None, None, None, Some(Some(refresh))))
            case Err(_) => Step(Error(400), users1)
            case Ok((_, users2)) => Step(Reply(200, GoogleSignedIn(user, access, refresh)), users2)
  }

  /**
   * `authRefreshTokenController`: 401 without a refresh cookie; a new
   * one-hour access token exactly when the cookie verifies, names a user by
   * its `userId` claim, and equals that user's stored token; 403 otherwise.
   * The table is never written: the refresh token is not rotated.
   */
  function Refresh(users: seq<User>, cookie: Option<string>, codec: TokenCodec): (r: Step<seq<User>>)
    ensures r.store == users
    ensures r.reply.status in {200, 401, 403}
    ensures r.reply.status == 401 <==> !Present(cookie)
    ensures r.reply.status == 200 <==>
      && Present(cookie)
      && codec.verify(cookie.value).Some?
      && codec.verify(cookie.value).value.userId.Some?
      && FindById(users, codec.verify(cookie.value).value.userId.value).Some?
      && FindById(users, codec.verify(cookie.value).value.userId.value).value.refreshToken == Some(cookie.value)
    ensures r.reply.status == 200 ==>
      var u := FindById(users, codec.verify(cookie.value).value.userId.value).value;
      r.reply.body == Refreshed(codec.sign(AccessClaims(u.id, u.email), AccessOptions))
  {
    if !Present(cookie) then Step(Error(401), users)
    else
      match codec.verify(cookie.value)
      case None => Step(Error(403), users)
      case Some(claims) =>
        match claims.userId
        case None => Step(Error(403), users)
        case Some(userId) =>
          match FindById(users, userId)
          case None => Step(Error(403), users)
          case Some(u) =>
            if u.refreshToken != Some(cookie.value) then Step(Error(403), users)
            else Step(Reply(200, Refreshed(codec.sign(AccessClaims(u.id, u.email), AccessOptions))), users)
  }

  /**
   * `authSignOutController`: 401 without a refresh cookie; when the cookie
   * verifies and names an existing user, that user's stored token is set to
   * null, whatever token was stored; 403 otherwise, with nothing written.
   */
  function SignOut(users: seq<User>, cookie: Option<string>, codec: TokenCodec): (r: Step<seq<User>>)
    ensures r.reply.status in {200, 401, 403}
    ensures r.reply.status == 401 <==> !Present(cookie)
    ensures r.reply.status != 200 ==> r.store == users
    ensures r.reply.status == 200 <==>
      && Present(cookie)
      && codec.verify(cookie.value).Some?
      && codec.verify(cookie.value).value.userId.Some?
      && FindById(users, codec.verify(cookie.value).value.userId.value).Some?
    ensures r.reply.status == 200 ==>
      var userId := codec.verify(cookie.value).value.userId.value;
      && |r.store| == |users|
      && FindById(r.store, userId) == Some(FindById(users, userId).value.(refreshToken := None))
      && (forall j :: 0 <= j < |users| && users[j].id != userId ==> r.store[j] == users[j])
  {
    if !Present(cookie) then Step(Error(401), users)
    else
      match codec.verify(cookie.value)
      case None => Step(Error(403), users)
      case Some(claims) =>
        match claims.userId
        case None => Step(Error(403), users)
        case Some(userId) =>
          match Update(users, userId, UserPatch(None, None, None, Some(None)))
          case Err(_) => Step(Error(403), users)
          case Ok((_, users')) => Step(Reply(200, MessageBody), users')
  }

  /**
   * What `authSignUpController` still writes after it has answered 400 for a
   * blank field: the handler does not return, so when an email and a
   * password were sent (even empty) and the email is free, the password is
   * hashed and the row inserted; a name left blank is stored as sent. A
   * missing email or password makes the lookup or the hash throw first, and
   * an email in use makes the second reply throw, so nothing is written then.
   */
  function InsertAfterBlankField(users: seq<User>, email: Option<string>, password: Option<string>,
                                 name: Option<string>, hasher: PasswordHasher, newId: Id): (r: seq<User>)
    ensures r == users || (|r| == |users| + 1 && r[..|users|] == users)
    ensures email.None? || password.None? || FindByEmail(users, email.value).Some? || FindById(users, newId).Some? ==>
      r == users
    ensures email.Some? && password.Some? && FindByEmail(users, email.value).None? && FindById(users, newId).None? ==>
      r == users + [User(newId, email.value, Some(hasher.hash(password.value)), name, None, "user", None)]
  {
    if email.Some? && password.Some? && FindByEmail(users, email.value).None? then
      match Create(users, User(newId, email.value, Some(hasher.hash(password.value)), name, None, "user", None))
      case Ok(users') => users'
      case Err(_) => users
    else users
  }

  /**
   * `authSignUpController`: 400 for a blank field or an email in use, 201
   * with one new row and the new user without its password, or 500 when the
   * insert fails. After a 400 for a blank field the handler carries on and
   * may still insert the row (`InsertAfterBlankField`).
   */
  function SignUp(users: seq<User>, email: Option<string>, password: Option<string>, name: Option<string>,
                  hasher: PasswordHasher, newId: Id): (r: Step<seq<User>>)
    ensures r.reply.status in {201, 400, 500}
    ensures r.reply.status == 201 <==>
      Present(email) && Present(password) && Present(name) && FindByEmail(users, email.value).None? && FindById(users, newId).None?
    ensures r.reply.status == 400 <==>
      !Present(email) || !Present(password) || !Present(name) || FindByEmail(users, email.value).Some?
    ensures r.reply.status == 500 ==> r.store == users
    ensures r.reply.status == 400 ==> r.store == InsertAfterBlankField(users, email, password, name, hasher, newId)
    ensures r.reply.status == 201 ==>
      && |r.store| == |users| + 1 && r.store[..|users|] == users
      && var u := r.store[|users|];
      && u.email == email.value && u.password == Some(hasher.hash(password.value)) && u.role == "user"
      && r.reply.body == CreatedUser(View(u))
  {
    if !Present(email) || !Present(password) || !Present(name) then
      Step(Error(400), InsertAfterBlankField(users, email, password, name, hasher, newId))
    else
      match Register(users, email, password, name, hasher, newId)
      case Err(status) => Step(Error(status), users)
      case Ok((u, users')) => Step(Reply(201, CreatedUser(View(u))), users')
  }

  /**
   * A sign-up with a blank name but a fresh email and a password is answered
   * 400, and the account is created all the same.
   */
  lemma SignUpBlankNameStillInserts(users: seq<User>, email: string, password: string,
                                    hasher: PasswordHasher, newId: Id)
    requires FindByEmail(users, email).None? && FindById(users, newId).None?
    ensures var r := SignUp(users, Some(email), Some(password), Some(""), hasher, newId);
      && r.reply.status == 400
      && r.store == users + [User(newId, email, Some(hasher.hash(password)), Some(""), None, "user", None)]
  {
  }
}

=== FILE: bearer_auth.dfy ===
/**
 * The middleware routers import (src/middleware/auth.ts): both gates read the
 * token from the `Authorization` header.
 */
module BearerAuth {
  import opened Wrappers
  import opened Oracles
  import opened JsValues
  import opened Http

  /** The text before the first space (all of it when there is none). */
  function UpToSpace(s: string): (r: string)
    ensures r <= s && ' ' !in r
    ensures |r| < |s| ==> s[|r|] == ' '
  {
    if |s| == 0 || s[0] == ' ' then "" else [s[0]] + UpToSpace(s[1..])
  }

  /**
   * `authorization?.split(" ")[1]`: the second space-separated field of the
   * header, or `undefined` when the header is missing or has no space.
   */
  function BearerToken(authorization: Option<string>): (r: Option<string>)
    ensures r.Some? <==> authorization.Some? && ' ' in authorization.value
    ensures r.Some? ==> ' ' !in r.value
  {
    match authorization
    case None => None
    case Some(h) =>
      var scheme := UpToSpace(h);
      if |scheme| == |h| then
        assert h == scheme;
        None
      else Some(UpToSpace(h[|scheme| + 1..]))
  }

  /** A header `<scheme> <token>[ <more>]` yields `<token>`. */
  lemma BearerTokenOfHeader(scheme: string, token: string, more: string)
    requires ' ' !in scheme && ' ' !in token
    requires more == [] || more[0] == ' '
    ensures BearerToken(Some(scheme + " " + token + more)) == Some(token)
  {
    var h := scheme + " " + token + more;
    var rest := " " + token + more;
    assert h == scheme + rest;
    UpToSpaceOfField(scheme, rest);
    assert h[|scheme| + 1..] == token + more;
    UpToSpaceOfField(token, more);
  }

  lemma {:induction false} UpToSpaceOfField(field: string, rest: string)
    requires ' ' !in field
    requires rest == [] || rest[0] == ' '
    ensures UpToSpace(field + rest) == field
  {
    if field != [] {
      assert (field + rest)[1..] == field[1..] + rest;
      UpToSpaceOfField(field[1..], rest);
    }
  }

  /** The header a client sends for a token. */
  function BearerHeader(token: string): Option<string>
  {
    Some("Bearer " + token)
  }

  /**
   * `isAuthAdmin`: 401 without a token or when it does not verify, 403 when
   * its role claim is not "admin"; otherwise `next()`, leaving `req.userId` unset.
   */
  function IsAuthAdmin(authorization: Option<string>, codec: TokenCodec): (g: Gate)
    ensures g == Reject(401) <==>
      !Present(BearerToken(authorization)) || codec.verify(BearerToken(authorization).value).None?
    ensures g == Reject(403) <==>
      Present(BearerToken(authorization)) && codec.verify(BearerToken(authorization).value).Some?
      && codec.verify(BearerToken(authorization).value).value.role != Some("admin")
    ensures g.Proceed? ==> g.userId.None?
    ensures g.Reject? ==> g.status in {401, 403}
  {
    var token := BearerToken(authorization);
    if !Present(token) then Reject(401)
    else
      match codec.verify(token.value)
      case None => Reject(401)
      case Some(claims) =>
        if claims.role != Some("admin") then Reject(403) else Proceed(None)
  }

  /**
   * `isAuthUser`: 401 without a token or when it does not verify; otherwise
   * `next()` with `req.userId` set to the token's `userId` claim.
   */
  function IsAuthUser(authorization: Option<string>, codec: TokenCodec): (g: Gate)
    ensures g.Reject? <==>
      !Present(BearerToken(authorization)) || codec.verify(BearerToken(authorization).value).None?
    ensures g.Reject? ==> g.status == 401
    ensures g.Proceed? ==> g.userId == codec.verify(BearerToken(authorization).value).value.userId
  {
    var token := BearerToken(authorization);
    if !Present(token) then Reject(401)
    else
      match codec.verify(token.value)
      case None => Reject(401)
      case Some(claims) => Proceed(claims.userId)
  }

  /** A token passes the admin gate only if it passes the user gate. */
  lemma AdminImpliesUser(authorization: Option<string>, codec: TokenCodec)
    requires IsAuthAdmin(authorization, codec).Proceed?
    ensures IsAuthUser(authorization, codec).Proceed?
  {
  }

  /**
   * Sent as a bearer header, a signed token that still verifies passes the
   * admin gate exactly when it was signed with the role claim "admin", and the
   * user gate with exactly the `userId` claim it was signed with.
   */
  lemma SignedTokenGates(codec: TokenCodec, claims: Claims, options: SignOptions)
    requires Faithful(codec)
    requires codec.verify(codec.sign(claims, options)).Some?
    ensures IsAuthAdmin(BearerHeader(codec.sign(claims, options)), codec).Proceed? <==> claims.role == Some("admin")
    ensures IsAuthUser(BearerHeader(codec.sign(claims, options)), codec) == Proceed(claims.userId)
  {
    var t := codec.sign(claims, options);
    BearerTokenOfHeader("Bearer", t, "");
    assert "Bearer" + " " + t + "" == "Bearer " + t;
  }

  /** No signed token whose claims carry no "admin" role ever passes the admin gate. */
  lemma NonAdminClaimsNeverPass(codec: TokenCodec, claims: Claims, options: SignOptions)
    requires Faithful(codec)
    requires claims.role != Some("admin")
    ensures !IsAuthAdmin(BearerHeader(codec.sign(claims, options)), codec).Proceed?
  {
    var t := codec.sign(claims, options);
    if codec.verify(t).Some? {
      SignedTokenGates(codec, claims, options);
    } else {
      BearerTokenOfHeader("Bearer", t, "");
      assert "Bearer" + " " + t + "" == "Bearer " + t;
    }
  }
}

=== FILE: cookie_auth.dfy ===
/**
 * The cookie-based variant of the middleware (src/middleware/auth.middleware.ts):
 * the admin gate reads the `Authorization` header, the user gate the
 * `accessToken` cookie.
 */
module CookieAuth {
  import opened Wrappers
  import opened Oracles
  import opened JsValues
  import opened Http
  import BearerAuth

  /** `isAuthAdmin`: the header-based decision, written out a second time in this file. */
  function IsAuthAdmin(authorization: Option<string>, codec: TokenCodec): (g: Gate)
    ensures g.Proceed? <==>
      var token := BearerAuth.BearerToken(authorization);
      Present(token) && codec.verify(token.value).Some? && codec.verify(token.value).value.role == Some("admin")
    ensures g.Proceed? ==> g.userId.None?
  {
    var token := BearerAuth.BearerToken(authorization);
    if !Present(token) then Reject(401)
    else
      match codec.verify(token.value)
      case None => Reject(401)
      case Some(claims) =>
        if claims.role != Some("admin") then Reject(403) else Proceed(None)
  }

  /** Both files' admin gates decide every request alike. */
  lemma AdminGatesAgree(authorization: Option<string>, codec: TokenCodec)
    ensures IsAuthAdmin(authorization, codec) == BearerAuth.IsAuthAdmin(authorization, codec)
  {
  }

  /**
   * `isAuthUser`: 403 without an `accessToken` cookie, 401 when it does not
   * verify, otherwise `next()` with `req.userId` set to its `userId` claim.
   * The header is read but never consulted.
   */
  function IsAuthUser(accessToken: Option<string>, authorization: Option<string>, codec: TokenCodec): (g: Gate)
    ensures !Present(accessToken) <==> g == Reject(403)
    ensures Present(accessToken) && codec.verify(accessToken.value).None? <==> g == Reject(401)
    ensures g.Proceed? ==> g.userId == codec.verify(accessToken.value).value.userId
  {
    if !Present(accessToken) then Reject(403)
    else
      match codec.verify(accessToken.value)
      case None => Reject(401)
      case Some(claims) => Proceed(claims.userId)
  }

  /** The user gate's decision does not depend on the `Authorization` header. */
  lemma UserGateIgnoresHeader(accessToken: Option<string>, h1: Option<string>, h2: Option<string>, codec: TokenCodec)
    ensures IsAuthUser(accessToken, h1, codec) == IsAuthUser(accessToken, h2, codec)
  {
  }

  /**
   * A missing token is answered 403 here and 401 by the header-based gate;
   * once a token is present both gates decide alike.
   */
  lemma UserGatesCompared(token: string, codec: TokenCodec)
    requires token != "" && ' ' !in token
    ensures IsAuthUser(None, BearerAuth.BearerHeader(token), codec) == Reject(403)
    ensures BearerAuth.IsAuthUser(None, codec) == Reject(401)
    ensures IsAuthUser(Some(token), None, codec) == BearerAuth.IsAuthUser(BearerAuth.BearerHeader(token), codec)
  {
    BearerAuth.BearerTokenOfHeader("Bearer", token, "");
    assert "Bearer" + " " + token + "" == "Bearer " + token;
  }
}

=== FILE: credentials.dfy ===
/**
 * The password sign-in and registration decisions, made alike by the auth
 * controller (src/controllers/auth.controller.ts) and the user router
 * (src/routes/user.ts); here they are defined once and both handlers use them.
 */
module Credentials {
  import opened Wrappers
  import opened Oracles
  import opened JsValues
  import opened Rows
  import opened Users

  /**
   * Password sign-in, checked in order: both fields given (else 400), the
   * email known (else 404), the password matching the stored hash (else
   * 401). An account without a hash makes `bcrypt.compare` throw, which each
   * handler answers with its own `hashMissing` status.
   */
  function CheckPassword(users: seq<User>, email: Option<string>, password: Option<string>,
                         hasher: PasswordHasher, hashMissing: int): (r: Result<User, int>)
    requires hashMissing == 400 || hashMissing == 500
    ensures !Present(email) || !Present(password) ==> r == Err(400)
    ensures Present(email) && Present(password) ==>
      (r == Err(404) <==> FindByEmail(users, email.value).None?)
    ensures r == Err(401) <==>
      && Present(email) && Present(password)
      && FindByEmail(users, email.value).Some?
      && FindByEmail(users, email.value).value.password.Some?
      && !hasher.compare(password.value, FindByEmail(users, email.value).value.password.value)
    ensures r.Ok? <==>
      && Present(email) && Present(password)
      && FindByEmail(users, email.value).Some?
      && FindByEmail(users, email.value).value.password.Some?
      && hasher.compare(password.value, FindByEmail(users, email.value).value.password.value)
    ensures r.Ok? ==> r.value in users && r.value.email == email.value
    ensures r.Err? ==> r.error in {400, 401, 404, hashMissing}
  {
    if !Present(email) || !Present(password) then Err(400)
    else
      match FindByEmail(users, email.value)
      case None => Err(404)
      case Some(u) =>
        match u.password
        case None => Err(hashMissing)
        case Some(hash) => if hasher.compare(password.value, hash) then Ok(u) else Err(401)
  }

  /** The row a registration inserts: the hash of the password, role "user". */
  function NewAccount(newId: Id, email: string, password: string, name: string, hasher: PasswordHasher): User
  {
    User(newId, email, Some(hasher.hash(password)), Some(name), None, "user", None)
  }

  /**
   * Registration: 400 when a field is missing or the email is already in use
   * (no row is written); otherwise one new row, and 500 if the insert fails.
   */
  function Register(users: seq<User>, email: Option<string>, password: Option<string>, name: Option<string>,
                    hasher: PasswordHasher, newId: Id): (r: Result<(User, seq<User>), int>)
    ensures r == Err(400) <==>
      !Present(email) || !Present(password) || !Present(name) || FindByEmail(users, email.value).Some?
    ensures r.Err? ==> r.error in {400, 500}
    ensures Present(email) && Present(password) && Present(name) && FindByEmail(users, email.value).None? ==>
      (r.Ok? <==> FindById(users, newId).None?)
    ensures r.Ok? ==> var (u, users') := r.value;
      && users' == users + [u]
      && u.id == newId && u.email == email.value && u.name == name
      && u.password == Some(hasher.hash(password.value))
      && u.role == "user" && u.imageUrl.None? && u.refreshToken.None?
  {
    if !Present(email) || !Present(password) || !Present(name) then Err(400)
    else if FindByEmail(users, email.value).Some? then Err(400)
    else
      var u := NewAccount(newId, email.value, password.value, name.value, hasher);
      match Create(users, u)
      case Err(_) => Err(500)
      case Ok(users') => Ok((u, users'))
  }

  /** Registration keeps ids and emails unique. */
  lemma RegisterPreservesWf(users: seq<User>, email: Option<string>, password: Option<string>, name: Option<string>,
                            hasher: PasswordHasher, newId: Id)
    requires Wf(users)
    requires Register(users, email, password, name, hasher, newId).Ok?
    ensures Wf(Register(users, email, password, name, hasher, newId).value.1)
  {
    var u := NewAccount(newId, email.value, password.value, name.value, hasher);
    CreateWf(users, u);
  }

  /** Whoever registers can then sign in with the same email and password. */
  lemma SignInAfterRegister(users: seq<User>, email: Option<string>, password: Option<string>, name: Option<string>,
                            hasher: PasswordHasher, newId: Id, hashMissing: int)
    requires Consistent(hasher)
    requires hashMissing == 400 || hashMissing == 500
    requires Register(users, email, password, name, hasher, newId).Ok?
    ensures var (u, users') := Register(users, email, password, name, hasher, newId).value;
      CheckPassword(users', email, password, hasher, hashMissing) == Ok(u)
  {
    var (u, users') := Register(users, email, password, name, hasher, newId).value;
    FindIndexAfterAppend(users, WithEmail(email.value), u);
    assert FindByEmail(users', email.value) == Some(u);
  }
}

=== FILE: http.dfy ===
/** What a request handler answers, and what a middleware decides. */
module Http {
  import opened Wrappers
  import opened Oracles
  import Users
  import TaskService

  /** The JSON body of a response, by the shape the handler sends. */
  datatype Body =
    | ErrorBody
    | MessageBody
    | SignedIn(view: Users.UserView, accessToken: string)
    | GoogleSignedIn(user: Users.User, accessToken: string, refreshCookie: string)
    | Refreshed(accessToken: string)
    | CreatedUser(view: Users.UserView)
    | Registered(id: Id, email: string, name: string)
    | UserList(users: seq<Users.User>)
    | UpdatedUser(user: Users.User)
    | TaskBody(task: TaskService.Task)
    | TaskList(tasks: seq<TaskService.Task>)
    | TaskTrees(trees: seq<TaskService.TaskTree>)
    | PendingBody

  datatype Reply = Reply(status: int, body: Body)

  function Error(status: int): Reply
  {
    Reply(status, ErrorBody)
  }

  /** A handler's answer together with the table it leaves behind. */
  datatype Step<S> = Step(reply: Reply, store: S)

  /**
   * A middleware either answers the request itself or calls `next` once,
   * with `req.userId` set to the given value (`None`: left undefined).
   */
  datatype Gate = Reject(status: int) | Proceed(userId: Option<Id>)
}

=== FILE: js_values.dfy ===
/**
 * The JavaScript value semantics the request handlers rely on: truthiness of
 * body fields and the `Number(...)` coercion applied to task priorities.
 */
module JsValues {
  import opened Wrappers

  /** A JSON scalar a request body may carry in a numeric field. */
  datatype Scalar = Null | Num(n: int) | NaN | Str(s: string)

  /** The falsy scalars: `null`, `0`, `NaN` and the empty string. */
  predicate Falsy(v: Scalar)
  {
    v.Null? || v == Num(0) || v.NaN? || v == Str("")
  }

  /** `!!field` for an optional numeric body field (absent is `undefined`, which is falsy). */
  predicate Truthy(field: Option<Scalar>)
  {
    field.Some? && !Falsy(field.value)
  }

  /** `!!field` for an optional string body field. */
  predicate Present(field: Option<string>)
  {
    field.Some? && field.value != ""
  }

  predicate IsDigit(c: char)
  {
    '0' <= c <= '9'
  }

  predicate IsDigits(s: string)
  {
    forall i :: 0 <= i < |s| ==> IsDigit(s[i])
  }

  /** The value of a string of decimal digits (leading zeros allowed). */
  function DigitsValue(s: string): nat
    requires IsDigits(s)
  {
    if |s| == 0 then 0
    else DigitsValue(s[..|s| - 1]) * 10 + (s[|s| - 1] as int - '0' as int)
  }

  /** The shortest decimal rendering of a natural number. */
  function Decimal(n: nat): (s: string)
    ensures IsDigits(s) && |s| > 0
    ensures |s| > 1 ==> s[0] != '0'
  {
    var d := [('0' as int + n % 10) as char];
    if n < 10 then d else Decimal(n / 10) + d
  }

  /** Reading back a rendered number gives the number: `Number(String(n)) === n`. */
  lemma {:induction false} DecimalRoundTrip(n: nat)
    ensures DigitsValue(Decimal(n)) == n
  {
    if n >= 10 {
      var s := Decimal(n);
      assert s[..|s| - 1] == Decimal(n / 10);
      DecimalRoundTrip(n / 10);
    }
  }

  /**
   * JavaScript `Number(v)`: `null` and `""` become 0, numbers stay, strings of
   * decimal digits become their value, and every other string becomes NaN.
   */
  function ToNumber(v: Scalar): (r: Scalar)
    ensures r.Num? || r.NaN?
    ensures v.Num? ==> r == v
    ensures Falsy(v) ==> Falsy(r)
    ensures r.Num? && r.n < 0 ==> v.Num?
  {
    match v
    case Null => Num(0)
    case Num(n) => v
    case NaN => NaN
    case Str(s) =>
      if s == "" then Num(0)
      else if IsDigits(s) then Num(DigitsValue(s))
      else NaN
  }

  /** A priority sent as the text of a number is coerced to that number. */
  lemma NumberOfDecimalText(n: nat)
    ensures ToNumber(Str(Decimal(n))) == Num(n)
  {
    DecimalRoundTrip(n);
  }
}

=== FILE: oracles.dfy ===
/**
 * The library calls the handlers make, as function values passed in:
 * JSON Web Token signing and verification, bcrypt hashing, and Google's
 * identity-token verifier. Their only assumed properties are stated as
 * predicates, used as hypotheses of lemmas.
 */
module Oracles {
  import opened Wrappers

  type Id = string

  /** A token payload; `None` is a claim the payload does not carry. */
  datatype Claims = Claims(
    userId: Option<Id>,
    id: Option<Id>,
    email: Option<string>,
    name: Option<string>,
    imageUrl: Option<string>,
    role: Option<string>,
    refreshToken: Option<string>)

  const NoClaims: Claims := Claims(None, None, None, None, None, None, None)

  /** The options a token is signed with. Expiry is kept as the source's text. */
  datatype SignOptions = SignOptions(expiresIn: string, audience: Option<string>, issuer: Option<string>)

  /**
   * `jwt.sign` and `jwt.verify` under the server's secret and the current
   * time; `verify` answers `None` where the library throws.
   */
  datatype TokenCodec = TokenCodec(sign: (Claims, SignOptions) -> string, verify: string -> Option<Claims>)

  /**
   * What a signature scheme guarantees: a signed token is a non-empty text
   * without spaces, verifying one gives back the claims it was signed with or
   * fails (expired), and every token that verifies was signed with its claims.
   */
  ghost predicate Faithful(codec: TokenCodec)
  {
    && (forall c, o :: codec.sign(c, o) != "" && ' ' !in codec.sign(c, o))
    && (forall c, o :: codec.verify(codec.sign(c, o)) == None || codec.verify(codec.sign(c, o)) == Some(c))
    && (forall t :: codec.verify(t).Some? ==> exists o :: t == codec.sign(codec.verify(t).value, o))
  }

  /** `bcrypt.hash` (salt included) and `bcrypt.compare(plain, hash)`. */
  datatype PasswordHasher = PasswordHasher(hash: string -> string, compare: (string, string) -> bool)

  /** The one property relied on: a password matches its own hash. */
  ghost predicate Consistent(hasher: PasswordHasher)
  {
    forall p :: hasher.compare(p, hasher.hash(p))
  }

  /** The attested fields of a verified Google identity token. */
  datatype GooglePayload = GooglePayload(email: Option<string>, name: Option<string>, picture: Option<string>)

  /** `verifyIdToken` for the server's client id; `None` where it throws. */
  type GoogleVerifier = string -> Option<GooglePayload>
}

=== FILE: rows.dfy ===
/**
 * Tables are sequences of rows. These are the searches a query engine runs on
 * them: the first row a predicate selects, and all rows it selects in order.
 */
module Rows {
  import opened Wrappers

  /** The errors the query engine raises for a single-row call. */
  datatype StoreError = NotFound | UniqueViolation | InvalidData

  /** The position of the first row `p` selects. */
  function FindIndex<T>(s: seq<T>, p: T -> bool): (r: Option<nat>)
    ensures r.Some? ==> r.value < |s| && p(s[r.value])
    ensures r.Some? ==> forall j :: 0 <= j < r.value ==> !p(s[j])
    ensures r.None? ==> forall j :: 0 <= j < |s| ==> !p(s[j])
  {
    if |s| == 0 then None
    else if p(s[0]) then Some(0)
    else
      match FindIndex(s[1..], p)
      case None => None
      case Some(k) => Some(k + 1)
  }

  /** The first row `p` selects. */
  function Find<T>(s: seq<T>, p: T -> bool): (r: Option<T>)
    ensures r.Some? ==> r.value in s && p(r.value)
    ensures r.None? ==> forall j :: 0 <= j < |s| ==> !p(s[j])
  {
    match FindIndex(s, p)
    case None => None
    case Some(i) => Some(s[i])
  }

  /** Every row `p` selects, in table order. */
  function Filter<T>(s: seq<T>, p: T -> bool): (r: seq<T>)
    ensures forall i :: 0 <= i < |r| ==> r[i] in s && p(r[i])
    ensures forall j :: 0 <= j < |s| && p(s[j]) ==> s[j] in r
    ensures |r| <= |s|
  {
    if |s| == 0 then []
    else (if p(s[0]) then [s[0]] else []) + Filter(s[1..], p)
  }

  /** No row is selected more often than the table holds it. */
  lemma {:induction false} FilterSubMultiset<T>(s: seq<T>, p: T -> bool)
    ensures multiset(Filter(s, p)) <= multiset(s)
  {
    if |s| > 0 {
      assert s == [s[0]] + s[1..];
      FilterSubMultiset(s[1..], p);
    }
  }

  /** Filtering a table grown by one row extends the earlier result, so the order is the table's. */
  lemma {:induction false} FilterAppend<T>(s: seq<T>, p: T -> bool, x: T)
    ensures Filter(s + [x], p) == Filter(s, p) + (if p(x) then [x] else [])
  {
    if |s| > 0 {
      assert (s + [x])[1..] == s[1..] + [x];
      FilterAppend(s[1..], p, x);
    }
  }

  /** Replacing the first selected row by another selected row keeps it first. */
  lemma {:induction false} FindIndexAfterReplace<T>(s: seq<T>, p: T -> bool, i: nat, x: T)
    requires FindIndex(s, p) == Some(i)
    requires p(x)
    ensures FindIndex(s[i := x], p) == Some(i)
  {
    if i > 0 {
      assert s[i := x][1..] == s[1..][i - 1 := x];
      FindIndexAfterReplace(s[1..], p, i - 1, x);
    }
  }

  /** A row appended to a table nothing selects is the first selected row. */
  lemma {:induction false} FindIndexAfterAppend<T>(s: seq<T>, p: T -> bool, x: T)
    requires FindIndex(s, p).None?
    requires p(x)
    ensures FindIndex(s + [x], p) == Some(|s|)
  {
    if |s| > 0 {
      assert (s + [x])[1..] == s[1..] + [x];
      FindIndexAfterAppend(s[1..], p, x);
    }
  }
}

=== FILE: session.dfy ===
/**
 * The session lifecycle the auth controller implements, stated across
 * handlers: each user has one stored refresh token, refresh accepts only
 * that token, Google sign-in replaces it and sign-out clears it.
 */
module Session {
  import opened Wrappers
  import opened Oracles
  import opened Users
  import opened AuthController
  import Credentials
  import BearerAuth

  /** In any table, two tokens that both refresh one user's session are the same token. */
  lemma AtMostOneRefreshTokenPerUser(users: seq<User>, codec: TokenCodec, t1: string, t2: string)
    requires Refresh(users, Some(t1), codec).reply.status == 200
    requires Refresh(users, Some(t2), codec).reply.status == 200
    requires codec.verify(t1).value.userId == codec.verify(t2).value.userId
    ensures t1 == t2
  {
  }

  /**
   * After a Google sign-in, a token naming that user refreshes only if it is
   * the token just issued; that token refreshes as long as it verifies.
   */
  lemma GoogleSignInReplacesSession(users: seq<User>, idToken: Option<string>, google: GoogleVerifier,
                                    codec: TokenCodec, newId: Id, t: string)
    requires Wf(users)
    requires GoogleSignIn(users, idToken, google, codec, newId).reply.status == 200
    ensures var step := GoogleSignIn(users, idToken, google, codec, newId);
      var user := step.reply.body.user;
      && ((Refresh(step.store, Some(t), codec).reply.status == 200
           && codec.verify(t).value.userId == Some(user.id)) ==> t == step.reply.body.refreshCookie)
      && ((step.reply.body.refreshCookie != ""
           && codec.verify(step.reply.body.refreshCookie) == Some(RefreshClaims(user.id))) ==>
          Refresh(step.store, Some(step.reply.body.refreshCookie), codec).reply.status == 200)
  {
  }

  /** With a faithful codec, the issued refresh token works until it expires. */
  lemma IssuedRefreshTokenWorks(users: seq<User>, idToken: Option<string>, google: GoogleVerifier,
                                codec: TokenCodec, newId: Id)
    requires Wf(users) && Faithful(codec)
    requires GoogleSignIn(users, idToken, google, codec, newId).reply.status == 200
    requires codec.verify(GoogleSignIn(users, idToken, google, codec, newId).reply.body.refreshCookie).Some?
    ensures var step := GoogleSignIn(users, idToken, google, codec, newId);
      Refresh(step.store, Some(step.reply.body.refreshCookie), codec).reply.status == 200
  {
    var step := GoogleSignIn(users, idToken, google, codec, newId);
    var user := step.reply.body.user;
    GoogleSignInReplacesSession(users, idToken, google, codec, newId, step.reply.body.refreshCookie);
    assert step.reply.body.refreshCookie == codec.sign(RefreshClaims(user.id), RefreshOptions);
  }

  /** After a sign-out, no token naming the signed-out user refreshes. */
  lemma SignOutRevokes(users: seq<User>, codec: TokenCodec, cookie: string, t: string)
    requires SignOut(users, Some(cookie), codec).reply.status == 200
    requires codec.verify(t).Some? && codec.verify(t).value.userId == codec.verify(cookie).value.userId
    ensures Refresh(SignOut(users, Some(cookie), codec).store, Some(t), codec).reply.status != 200
  {
  }

  /** Sign-out does not compare the cookie with the stored token: a stale token still signs out. */
  lemma SignOutAcceptsStaleToken(users: seq<User>, codec: TokenCodec, cookie: string)
    requires cookie != ""
    requires codec.verify(cookie).Some? && codec.verify(cookie).value.userId.Some?
    requires FindById(users, codec.verify(cookie).value.userId.value).Some?
    requires FindById(users, codec.verify(cookie).value.userId.value).value.refreshToken != Some(cookie)
    ensures Refresh(users, Some(cookie), codec).reply.status == 403
    ensures SignOut(users, Some(cookie), codec).reply.status == 200
  {
  }

  /** Whoever signs up can sign in with the same email and password. */
  lemma SignUpThenSignIn(users: seq<User>, email: string, password: string, name: string,
                         hasher: PasswordHasher, codec: TokenCodec, newId: Id)
    requires Consistent(hasher)
    requires SignUp(users, Some(email), Some(password), Some(name), hasher, newId).reply.status == 201
    ensures var users' := SignUp(users, Some(email), Some(password), Some(name), hasher, newId).store;
      SignIn(users', Some(email), Some(password), codec, hasher).reply.status == 200
  {
    Credentials.SignInAfterRegister(users, Some(email), Some(password), Some(name), hasher, newId, 400);
  }

  /** Access and refresh tokens of this controller carry no role, so none passes the admin gate. */
  lemma ControllerTokensNeverAdmin(codec: TokenCodec, userId: Id, email: string)
    requires Faithful(codec)
    ensures !BearerAuth.IsAuthAdmin(BearerAuth.BearerHeader(codec.sign(AccessClaims(userId, email), AccessOptions)), codec).Proceed?
    ensures !BearerAuth.IsAuthAdmin(BearerAuth.BearerHeader(codec.sign(RefreshClaims(userId), RefreshOptions)), codec).Proceed?
  {
    BearerAuth.NonAdminClaimsNeverPass(codec, AccessClaims(userId, email), AccessOptions);
    BearerAuth.NonAdminClaimsNeverPass(codec, RefreshClaims(userId), RefreshOptions);
  }
}

=== FILE: task_controller.dfy ===
/**
 * The task handlers of src/controllers/task.controller.ts: how the request
 * body is shaped into the data the task service writes.
 */
module TaskController {
  import opened Wrappers
  import opened Oracles
  import opened JsValues
  import opened TaskService
  import opened Http

  /** `Number(priority || 1)`: a falsy or absent priority becomes 1. */
  function CreatePriority(priority: Option<Scalar>): (r: Scalar)
    ensures r.Num? || r.NaN?
    ensures !Truthy(priority) ==> r == Num(1)
    ensures priority.Some? && priority.value.Num? && priority.value.n != 0 ==> r == priority.value
  {
    ToNumber(if Truthy(priority) then priority.value else Num(1))
  }

  /** `{ ...body, priority: Number(body.priority || 1), userId }`. */
  function CreateData(body: TaskData, userId: Option<Id>): TaskData
  {
    body.(priority := Some(CreatePriority(body.priority)), userId := userId)
  }

  /**
   * `createTaskController`: the row is owned by the authenticated caller,
   * whatever owner the body names, and holds the body's columns with the
   * priority `Number(priority || 1)`; 201 and the new task, or 500 with
   * nothing written when the insert is refused.
   */
  function Create(tasks: seq<Task>, userId: Option<Id>, body: TaskData, newId: Id): (r: Step<seq<Task>>)
    ensures r.reply.status in {201, 500}
    ensures r.reply.status == 201 <==>
      && userId.Some? && body.title.Some?
      && IntColumn(CreatePriority(body.priority)).Some?
      && FindTaskById(tasks, newId).Err?
    ensures r.reply.status == 500 ==> r.store == tasks
    ensures r.reply.status == 201 ==>
      && r.reply.body.TaskBody?
      && var t := r.reply.body.task;
      && r.store == tasks + [t]
      && t.id == newId && t.userId == userId.value && t.title == body.title.value
      && t.description == body.description && t.category == body.category && t.status == body.status
      && t.parentTaskId == body.parentTaskId
      && CreatePriority(body.priority).Num? && t.priority == Some(CreatePriority(body.priority).n)
  {
    match CreateTask(tasks, CreateData(body, userId), newId)
    case Err(_) => Step(Error(500), tasks)
    case Ok((t, tasks')) => Step(Reply(201, TaskBody(t)), tasks')
  }

  /** A priority sent as the text of a positive number is stored as that number. */
  lemma CreateWithDecimalPriority(tasks: seq<Task>, userId: Id, body: TaskData, newId: Id, n: nat)
    requires 0 < n < Int32Limit && body.title.Some?
    requires body.priority == Some(Str(Decimal(n)))
    requires FindTaskById(tasks, newId).Err?
    ensures var r := Create(tasks, Some(userId), body, newId);
      r.reply.status == 201 && r.reply.body.task.priority == Some(n)
  {
    NumberOfDecimalText(n);
  }

  /** The text "0" is truthy, so it is not defaulted: the stored priority is 0. */
  lemma CreateWithZeroText(tasks: seq<Task>, userId: Id, body: TaskData, newId: Id)
    requires body.title.Some? && body.priority == Some(Str("0"))
    requires FindTaskById(tasks, newId).Err?
    ensures Create(tasks, Some(userId), body, newId).reply.body.task.priority == Some(0)
  {
    assert ToNumber(Str("0")) == Num(DigitsValue("0"));
  }

  /** A priority too wide for the integer column is refused: 500 and nothing written. */
  lemma CreateWithWidePriority(tasks: seq<Task>, userId: Id, body: TaskData, newId: Id, n: int)
    requires n >= Int32Limit || n < Int32Min
    requires body.priority == Some(Num(n))
    ensures Create(tasks, Some(userId), body, newId) == Step(Error(500), tasks)
  {
  }

  /** The owner named in the body never matters. */
  lemma CreateIgnoresBodyOwner(tasks: seq<Task>, userId: Option<Id>, body: TaskData, owner: Option<Id>, newId: Id)
    ensures Create(tasks, userId, body.(userId := owner), newId) == Create(tasks, userId, body, newId)
  {
  }

  /**
   * `createSubTaskController`: the row's parent is the path's task and its
   * owner the caller, whatever the body says. The service call is not
   * awaited, so the reply is 201 (with an unresolved promise) whether or not
   * the row is written.
   */
  function CreateSubtask(tasks: seq<Task>, userId: Option<Id>, parentTaskId: Id, body: TaskData, newId: Id): (r: Step<seq<Task>>)
    ensures r.reply == Reply(201, PendingBody)
    ensures r.store == tasks || |r.store| == |tasks| + 1
    ensures |r.store| == |tasks| + 1 ==>
      && r.store[..|tasks|] == tasks
      && var t := r.store[|tasks|];
      && userId.Some? && t.userId == userId.value && t.parentTaskId == Some(parentTaskId) && t.id == newId
      && body.title.Some? && t.title == body.title.value
      && t.description == body.description && t.category == body.category && t.status == body.status
      && CreatePriority(body.priority).Num? && t.priority == Some(CreatePriority(body.priority).n)
    ensures |r.store| == |tasks| + 1 <==>
      && userId.Some? && body.title.Some?
      && IntColumn(CreatePriority(body.priority)).Some?
      && FindTaskById(tasks, newId).Err?
  {
    match CreateTask(tasks, CreateData(body, userId).(parentTaskId := Some(parentTaskId)), newId)
    case Err(_) => Step(Reply(201, PendingBody), tasks)
    case Ok((_, tasks')) => Step(Reply(201, PendingBody), tasks')
  }

  /** The path's parent and the caller win over whatever the body names. */
  lemma CreateSubtaskIgnoresBodyLinks(tasks: seq<Task>, userId: Option<Id>, parentTaskId: Id, body: TaskData,
                                      owner: Option<Id>, parent: Option<Id>, newId: Id)
    ensures CreateSubtask(tasks, userId, parentTaskId, body.(userId := owner, parentTaskId := parent), newId)
         == CreateSubtask(tasks, userId, parentTaskId, body, newId)
  {
  }

  /**
   * `{ ...body, userId }` with `priority` converted only when truthy: a falsy
   * priority is passed on as sent, not defaulted.
   */
  function UpdateData(body: TaskData, userId: Option<Id>): TaskData
  {
    var shaped := if Truthy(body.priority) then body.(priority := Some(ToNumber(body.priority.value))) else body;
    shaped.(userId := userId)
  }

  /**
   * `updateTaskController`: the body's columns are written to the task with
   * the path's id, and its owner becomes the caller (there is no ownership
   * check); 200 and the row, or 500 with nothing written.
   */
  function Update(tasks: seq<Task>, userId: Option<Id>, id: Id, body: TaskData): (r: Step<seq<Task>>)
    ensures r.reply.status in {200, 500}
    ensures r.reply.status == 500 ==> r.store == tasks
    ensures FindTaskById(tasks, id).Err? ==> r.reply.status == 500
    ensures body.priority.Some? && Falsy(body.priority.value) && body.priority.value != Num(0) ==> r.reply.status == 500
    ensures r.reply.status == 200 <==>
      && FindTaskById(tasks, id).Ok?
      && (|| body.priority.None? || body.priority == Some(Num(0))
          || (Truthy(body.priority) && IntColumn(ToNumber(body.priority.value)).Some?))
    ensures r.reply.status == 200 ==>
      && FindTaskById(tasks, id).Ok? && r.reply.body.TaskBody?
      && var prev := FindTaskById(tasks, id).value;
      && var t := r.reply.body.task;
      && |r.store| == |tasks| && FindTaskById(r.store, id) == Ok(t)
      && (userId.Some? ==> t.userId == userId.value)
      && (userId.None? ==> t.userId == prev.userId)
      && (body.priority == Some(Num(0)) ==> t.priority == Some(0))
      && (body.priority.None? ==> t.priority == prev.priority)
      && t.title == (if body.title.Some? then body.title.value else prev.title)
      && t.description == (if body.description.Some? then body.description else prev.description)
      && t.category == (if body.category.Some? then body.category else prev.category)
      && t.status == (if body.status.Some? then body.status else prev.status)
      && t.parentTaskId == (if body.parentTaskId.Some? then body.parentTaskId else prev.parentTaskId)
      && (Truthy(body.priority) ==>
            ToNumber(body.priority.value).Num? && t.priority == Some(ToNumber(body.priority.value).n))
      && (forall j :: 0 <= j < |tasks| && tasks[j].id != id ==> r.store[j] == tasks[j])
  {
    match UpdateTask(tasks, id, UpdateData(body, userId))
    case Err(_) => Step(Error(500), tasks)
    case Ok((t, tasks')) => Step(Reply(200, TaskBody(t)), tasks')
  }

  /** The owner named in the body never matters. */
  lemma UpdateIgnoresBodyOwner(tasks: seq<Task>, userId: Option<Id>, id: Id, body: TaskData, owner: Option<Id>)
    ensures Update(tasks, userId, id, body.(userId := owner)) == Update(tasks, userId, id, body)
  {
  }

  /** A caller whose token carries a `userId` claim becomes the owner of any task it updates. */
  lemma UpdateTakesOwnership(tasks: seq<Task>, caller: Id, id: Id, title: string)
    requires FindTaskById(tasks, id).Ok?
    ensures var r := Update(tasks, Some(caller), id, TaskData(Some(title), None, None, None, None, None, None));
      r.reply.status == 200 && FindTaskById(r.store, id).value.userId == caller
  {
  }

  /**
   * `deleteTaskController`: the task with the path's id is removed whoever
   * asks (the caller is not consulted); 500 when there is none.
   */
  function Delete(tasks: seq<Task>, id: Id): (r: Step<seq<Task>>)
    ensures r.reply.status in {200, 500}
    ensures r.reply.status == 200 <==> FindTaskById(tasks, id).Ok?
    ensures r.reply.status == 500 ==> r.store == tasks
    ensures r.reply.status == 200 ==> |r.store| == |tasks| - 1 && (Wf(tasks) ==> FindTaskById(r.store, id).Err?)
    ensures r.reply.status == 200 ==>
      && (forall j :: 0 <= j < |tasks| && tasks[j].id != id ==> tasks[j] in r.store)
      && (forall j :: 0 <= j < |r.store| ==> r.store[j] in tasks)
  {
    match DeleteTask(tasks, id)
    case Err(_) => Step(Error(500), tasks)
    case Ok((_, tasks')) =>
      DeleteTaskRemovesId(tasks, id);
      Step(Reply(200, MessageBody), tasks')
  }
}

=== FILE: task_routes.dfy ===
/**
 * The task router (src/routes/task.ts): the owner's listing, the status
 * patch, and which gate stands in front of which handler.
 */
module TaskRoutes {
  import opened Wrappers
  import opened Oracles
  import opened Rows
  import opened TaskService
  import opened Http
  import BearerAuth
  import TaskController
  import Users
  import UserRoutes

  /**
   * The filter `{ userId, parentTaskId: null }`. An undefined `userId` is no
   * filter at all, so then every top-level task is selected.
   */
  function TopLevelOf(userId: Option<Id>): Task -> bool
  {
    (t: Task) => (userId.None? || t.userId == userId.value) && t.parentTaskId.None?
  }

  function ChildOf(parent: Task): Task -> bool
  {
    (t: Task) => t.parentTaskId == Some(parent.id)
  }

  /** `GET /`: the caller's top-level tasks, each with its subtasks. */
  function ListOwn(tasks: seq<Task>, userId: Option<Id>): (r: seq<TaskTree>)
    ensures forall i :: 0 <= i < |r| ==>
      && r[i].task in tasks && r[i].task.parentTaskId.None?
      && (userId.Some? ==> r[i].task.userId == userId.value)
    ensures forall j :: 0 <= j < |tasks| && tasks[j].parentTaskId.None? && (userId.None? || tasks[j].userId == userId.value) ==>
      exists i :: 0 <= i < |r| && r[i].task == tasks[j]
    ensures forall i, k :: 0 <= i < |r| && 0 <= k < |r[i].subTasks| ==>
      r[i].subTasks[k] in tasks && r[i].subTasks[k].parentTaskId == Some(r[i].task.id)
    ensures forall i, j :: 0 <= i < |r| && 0 <= j < |tasks| && tasks[j].parentTaskId == Some(r[i].task.id) ==>
      tasks[j] in r[i].subTasks
  {
    var roots := Filter(tasks, TopLevelOf(userId));
    var r := seq(|roots|, i requires 0 <= i < |roots| => TaskTree(roots[i], Filter(tasks, ChildOf(roots[i]))));
    assert forall k :: 0 <= k < |roots| ==> r[k].task == roots[k];
    r
  }

  /**
   * `PATCH /:id/status`: writes the status column of that task and nothing
   * else (an absent status writes nothing); 500 for an unknown id.
   */
  function PatchStatus(tasks: seq<Task>, id: Id, status: Option<string>): (r: Step<seq<Task>>)
    ensures r.reply.status in {200, 500}
    ensures r.reply.status == 200 <==> FindTaskById(tasks, id).Ok?
    ensures r.reply.status == 500 ==> r.store == tasks
    ensures r.reply.status == 200 ==>
      && var prev := FindTaskById(tasks, id).value;
      && r.reply.body == TaskBody(prev.(status := if status.Some? then status else prev.status))
      && |r.store| == |tasks| && FindTaskById(r.store, id) == Ok(r.reply.body.task)
      && (forall j :: 0 <= j < |tasks| && tasks[j].id != id ==> r.store[j] == tasks[j])
  {
    match UpdateTask(tasks, id, TaskData(None, None, None, None, status, None, None))
    case Err(_) => Step(Error(500), tasks)
    case Ok((t, tasks')) => Step(Reply(200, TaskBody(t)), tasks')
  }

  /** The requests the router serves, with their path parameters and bodies. */
  datatype TaskRequest =
    | ListAllRequest
    | ListRequest
    | CreateRequest(body: TaskData)
    | UpdateRequest(id: Id, body: TaskData)
    | DeleteRequest(id: Id)
    | SubtaskRequest(parentTaskId: Id, body: TaskData)
    | StatusRequest(id: Id, status: Option<string>)

  /** Every route except the listing of all tasks and the status patch sits behind `isAuthUser`. */
  predicate UserGated(request: TaskRequest)
  {
    !request.ListAllRequest? && !request.StatusRequest?
  }

  /** The handler a request reaches once past its gate, run for the resolved caller. */
  function Dispatch(tasks: seq<Task>, request: TaskRequest, userId: Option<Id>, newId: Id): Step<seq<Task>>
    requires UserGated(request)
  {
    match request
    case ListRequest => Step(Reply(200, TaskTrees(ListOwn(tasks, userId))), tasks)
    case CreateRequest(body) => TaskController.Create(tasks, userId, body, newId)
    case UpdateRequest(id, body) => TaskController.Update(tasks, userId, id, body)
    case DeleteRequest(id) => TaskController.Delete(tasks, id)
    case SubtaskRequest(parentTaskId, body) => TaskController.CreateSubtask(tasks, userId, parentTaskId, body, newId)
  }

  /**
   * The router: `GET /all` behind `isAuthAdmin`, the status patch behind no
   * gate, everything else behind `isAuthUser`; a rejecting gate answers with
   * its status and nothing is written.
   */
  function Route(tasks: seq<Task>, request: TaskRequest, authorization: Option<string>,
                 codec: TokenCodec, newId: Id): (r: Step<seq<Task>>)
    ensures request.ListAllRequest? ==>
      (r.reply.status == 200 <==> BearerAuth.IsAuthAdmin(authorization, codec).Proceed?) && r.store == tasks
    ensures request.ListAllRequest? && r.reply.status == 200 ==> r.reply.body == TaskList(tasks)
    ensures request.StatusRequest? ==> r == PatchStatus(tasks, request.id, request.status)
    ensures UserGated(request) && BearerAuth.IsAuthUser(authorization, codec).Reject? ==>
      r == Step(Error(BearerAuth.IsAuthUser(authorization, codec).status), tasks)
    ensures UserGated(request) && BearerAuth.IsAuthUser(authorization, codec).Proceed? ==>
      r == Dispatch(tasks, request, BearerAuth.IsAuthUser(authorization, codec).userId, newId)
  {
    match request
    case ListAllRequest =>
      (match BearerAuth.IsAuthAdmin(authorization, codec)
       case Reject(status) => Step(Error(status), tasks)
       case Proceed(_) => Step(Reply(200, TaskList(tasks)), tasks))
    case StatusRequest(id, status) => PatchStatus(tasks, id, status)
    case _ =>
      match BearerAuth.IsAuthUser(authorization, codec)
      case Reject(status) => Step(Error(status), tasks)
      case Proceed(userId) => Dispatch(tasks, request, userId, newId)
  }

  /** Without a token, every gated route answers 401 and writes nothing. */
  lemma NoTokenNoAccess(tasks: seq<Task>, request: TaskRequest, codec: TokenCodec, newId: Id)
    requires !request.StatusRequest?
    ensures Route(tasks, request, None, codec, newId) == Step(Error(401), tasks)
  {
  }

  /** The status patch answers the same whatever credentials come with it. */
  lemma PatchStatusIgnoresCredentials(tasks: seq<Task>, id: Id, status: Option<string>,
                                      h1: Option<string>, h2: Option<string>, codec: TokenCodec, newId: Id)
    ensures Route(tasks, StatusRequest(id, status), h1, codec, newId)
         == Route(tasks, StatusRequest(id, status), h2, codec, newId)
  {
  }

  /**
   * A session token of the user router's sign-in carries no `userId` claim,
   * so the listing it opens is filtered by nothing but `parentTaskId`: it
   * holds every user's top-level tasks.
   */
  lemma SessionTokenListsEveryTopLevelTask(tasks: seq<Task>, u: Users.User, codec: TokenCodec,
                                          expiration: Option<string>, newId: Id)
    requires Faithful(codec)
    requires codec.verify(codec.sign(UserRoutes.SessionClaims(u), UserRoutes.SessionOptions(expiration))).Some?
    ensures var token := codec.sign(UserRoutes.SessionClaims(u), UserRoutes.SessionOptions(expiration));
      var r := Route(tasks, ListRequest, BearerAuth.BearerHeader(token), codec, newId);
      && r.reply.body.TaskTrees?
      && forall j :: 0 <= j < |tasks| && tasks[j].parentTaskId.None? ==>
           exists i :: 0 <= i < |r.reply.body.trees| && r.reply.body.trees[i].task == tasks[j]
  {
    BearerAuth.SignedTokenGates(codec, UserRoutes.SessionClaims(u), UserRoutes.SessionOptions(expiration));
  }

  /**
   * The user router's session token passes `isAuthUser` with `req.userId`
   * unset, so its holder can update any user's task, and the owner stays.
   */
  lemma SessionTokenUpdatesAnyTask(tasks: seq<Task>, u: Users.User, codec: TokenCodec,
                                   expiration: Option<string>, id: Id, title: string, newId: Id)
    requires Faithful(codec)
    requires codec.verify(codec.sign(UserRoutes.SessionClaims(u), UserRoutes.SessionOptions(expiration))).Some?
    requires FindTaskById(tasks, id).Ok?
    ensures var token := codec.sign(UserRoutes.SessionClaims(u), UserRoutes.SessionOptions(expiration));
      var r := Route(tasks, UpdateRequest(id, TaskData(Some(title), None, None, None, None, None, None)),
                     BearerAuth.BearerHeader(token), codec, newId);
      && r.reply.status == 200
      && FindTaskById(r.store, id).value.title == title
      && FindTaskById(r.store, id).value.userId == FindTaskById(tasks, id).value.userId
  {
    BearerAuth.SignedTokenGates(codec, UserRoutes.SessionClaims(u), UserRoutes.SessionOptions(expiration));
  }
}

=== FILE: task_service.dfy ===
/** The task table and the calls of the task service (src/services/task.service.ts). */
module TaskService {
  import opened Wrappers
  import opened Oracles
  import opened Rows
  import opened JsValues

  /**
   * A task row. `priority` and `status` are `None` where the row took the
   * column's default; `parentTaskId` is `None` for a top-level task.
   */
  datatype Task = Task(
    id: Id,
    title: string,
    description: Option<string>,
    priority: Option<int>,
    category: Option<string>,
    status: Option<string>,
    userId: Id,
    parentTaskId: Option<Id>)

  /** The `data` object handed to a create or update; `None` is an `undefined` field. */
  datatype TaskData = TaskData(
    title: Option<string>,
    description: Option<string>,
    priority: Option<Scalar>,
    category: Option<string>,
    status: Option<string>,
    userId: Option<Id>,
    parentTaskId: Option<Id>)

  /** A top-level task together with its subtasks (`include: { subTasks: true }`). */
  datatype TaskTree = TaskTree(task: Task, subTasks: seq<Task>)

  /** `id` is the table's key. */
  ghost predicate Wf(tasks: seq<Task>)
  {
    forall i, j :: 0 <= i < j < |tasks| ==> tasks[i].id != tasks[j].id
  }

  /** The bounds of a 32-bit signed integer column. */
  const Int32Min: int := -0x8000_0000
  const Int32Limit: int := 0x8000_0000

  /**
   * The integer column (a 32-bit signed `Int`) accepts a number in its range
   * and rejects every other scalar.
   */
  function IntColumn(v: Scalar): (r: Option<int>)
    ensures r.Some? <==> v.Num? && Int32Min <= v.n < Int32Limit
    ensures r.Some? ==> r.value == v.n
  {
    if v.Num? && Int32Min <= v.n < Int32Limit then Some(v.n) else None
  }

  /** The query engine's type check of the data object. */
  predicate WellTyped(data: TaskData)
  {
    data.priority.None? || IntColumn(data.priority.value).Some?
  }

  function WithId(id: Id): Task -> bool
  {
    (t: Task) => t.id == id
  }

  function OwnedBy(userId: Id): Task -> bool
  {
    (t: Task) => t.userId == userId
  }

  /** `findTasksByUser`: every task of the user, in table order. */
  function FindTasksByUser(tasks: seq<Task>, userId: Id): (r: seq<Task>)
    ensures forall i :: 0 <= i < |r| ==> r[i] in tasks && r[i].userId == userId
    ensures forall j :: 0 <= j < |tasks| && tasks[j].userId == userId ==> tasks[j] in r
    ensures multiset(r) <= multiset(tasks)
  {
    FilterSubMultiset(tasks, OwnedBy(userId));
    Filter(tasks, OwnedBy(userId))
  }

  /** `findTaskById` (`findFirstOrThrow`): the task, or `NotFound`. */
  function FindTaskById(tasks: seq<Task>, id: Id): (r: Result<Task, StoreError>)
    ensures r.Ok? ==> r.value in tasks && r.value.id == id
    ensures r.Err? <==> forall j :: 0 <= j < |tasks| ==> tasks[j].id != id
    ensures r.Err? ==> r.error == NotFound
  {
    match Find(tasks, WithId(id))
    case None => Err(NotFound)
    case Some(t) => Ok(t)
  }

  /** The row `createTask(data)` inserts under the id the store generates. */
  function NewRow(data: TaskData, newId: Id): Task
    requires WellTyped(data) && data.title.Some? && data.userId.Some?
  {
    Task(newId, data.title.value, data.description,
         if data.priority.Some? then IntColumn(data.priority.value) else None,
         data.category, data.status, data.userId.value, data.parentTaskId)
  }

  /**
   * `createTask(data)`: a task needs a title and an owner and a numeric
   * priority if any; the new row goes at the end of the table.
   */
  function CreateTask(tasks: seq<Task>, data: TaskData, newId: Id): (r: Result<(Task, seq<Task>), StoreError>)
    ensures r.Ok? <==> WellTyped(data) && data.title.Some? && data.userId.Some? && FindTaskById(tasks, newId).Err?
    ensures r.Ok? ==> var (t, tasks') := r.value;
      && tasks' == tasks + [t]
      && t.id == newId && t.title == data.title.value && t.userId == data.userId.value
      && t.description == data.description && t.category == data.category && t.status == data.status
      && t.parentTaskId == data.parentTaskId
      && (data.priority.Some? ==> t.priority == Some(data.priority.value.n))
      && (data.priority.None? ==> t.priority.None?)
  {
    if !WellTyped(data) || data.title.None? || data.userId.None? then Err(InvalidData)
    else if FindTaskById(tasks, newId).Ok? then Err(UniqueViolation)
    else
      var t := NewRow(data, newId);
      Ok((t, tasks + [t]))
  }

  /** A row with the supplied columns of `data` written over it. */
  function Apply(t: Task, data: TaskData): Task
    requires WellTyped(data)
  {
    Task(t.id,
         if data.title.Some? then data.title.value else t.title,
         if data.description.Some? then data.description else t.description,
         if data.priority.Some? then IntColumn(data.priority.value) else t.priority,
         if data.category.Some? then data.category else t.category,
         if data.status.Some? then data.status else t.status,
         if data.userId.Some? then data.userId.value else t.userId,
         if data.parentTaskId.Some? then data.parentTaskId else t.parentTaskId)
  }

  /** Writing the same data twice leaves a row as writing it once. */
  lemma ApplyIdempotent(t: Task, data: TaskData)
    requires WellTyped(data)
    ensures Apply(Apply(t, data), data) == Apply(t, data)
  {
  }

  /**
   * `updateTask(id, data)`: only the row with that id changes, and in it
   * only the columns `data` supplies.
   */
  function UpdateTask(tasks: seq<Task>, id: Id, data: TaskData): (r: Result<(Task, seq<Task>), StoreError>)
    ensures r.Ok? <==> WellTyped(data) && FindTaskById(tasks, id).Ok?
    ensures r.Ok? ==> var (t, tasks') := r.value;
      var prev := FindTaskById(tasks, id).value;
      && |tasks'| == |tasks|
      && t in tasks' && t.id == id && FindTaskById(tasks', id) == Ok(t)
      && (data.title.None? ==> t.title == prev.title)
      && (data.title.Some? ==> t.title == data.title.value)
      && (data.description.None? ==> t.description == prev.description)
      && (data.description.Some? ==> t.description == data.description)
      && (data.priority.None? ==> t.priority == prev.priority)
      && (data.priority.Some? ==> t.priority == Some(data.priority.value.n))
      && (data.category.None? ==> t.category == prev.category)
      && (data.category.Some? ==> t.category == data.category)
      && (data.status.None? ==> t.status == prev.status)
      && (data.status.Some? ==> t.status == data.status)
      && (data.userId.None? ==> t.userId == prev.userId)
      && (data.userId.Some? ==> t.userId == data.userId.value)
      && (data.parentTaskId.None? ==> t.parentTaskId == prev.parentTaskId)
      && (data.parentTaskId.Some? ==> t.parentTaskId == data.parentTaskId)
      && (forall j :: 0 <= j < |tasks| && tasks[j].id != id ==> tasks'[j] == tasks[j])
  {
    if !WellTyped(data) then Err(InvalidData)
    else
      match FindIndex(tasks, WithId(id))
      case None => Err(NotFound)
      case Some(i) =>
        var t := Apply(tasks[i], data);
        FindIndexAfterReplace(tasks, WithId(id), i, t);
        Ok((t, tasks[i := t]))
  }

  /** Re-submitting an update gives the same row and the same table. */
  lemma UpdateTaskIdempotent(tasks: seq<Task>, id: Id, data: TaskData)
    requires UpdateTask(tasks, id, data).Ok?
    ensures UpdateTask(UpdateTask(tasks, id, data).value.1, id, data) == UpdateTask(tasks, id, data)
  {
    var i := FindIndex(tasks, WithId(id)).value;
    var t := Apply(tasks[i], data);
    FindIndexAfterReplace(tasks, WithId(id), i, t);
    ApplyIdempotent(tasks[i], data);
    assert tasks[i := t][i := Apply(t, data)] == tasks[i := t];
  }

  /** `deleteTask(id)`: the row with that id leaves the table; the rest keep their order. */
  function DeleteTask(tasks: seq<Task>, id: Id): (r: Result<(Task, seq<Task>), StoreError>)
    ensures r.Err? <==> FindTaskById(tasks, id).Err?
    ensures r.Err? ==> r.error == NotFound
    ensures r.Ok? ==> var (t, tasks') := r.value;
      && t.id == id && t in tasks && |tasks'| == |tasks| - 1
      && (forall j :: 0 <= j < |tasks| && tasks[j].id != id ==> tasks[j] in tasks')
      && (forall j :: 0 <= j < |tasks'| ==> tasks'[j] in tasks)
  {
    match FindIndex(tasks, WithId(id))
    case None => Err(NotFound)
    case Some(i) =>
      var tasks' := tasks[..i] + tasks[i + 1..];
      assert forall j :: 0 <= j < |tasks| && j != i ==> tasks[j] == tasks'[if j < i then j else j - 1];
      Ok((tasks[i], tasks'))
  }

  /** On a keyed table, no task with the deleted id remains. */
  lemma DeleteTaskRemovesId(tasks: seq<Task>, id: Id)
    ensures Wf(tasks) && DeleteTask(tasks, id).Ok? ==> FindTaskById(DeleteTask(tasks, id).value.1, id).Err?
  {
    if Wf(tasks) && DeleteTask(tasks, id).Ok? {
      var i := FindIndex(tasks, WithId(id)).value;
      var tasks' := DeleteTask(tasks, id).value.1;
      forall j | 0 <= j < |tasks'| ensures tasks'[j].id != id {
        assert tasks'[j] == tasks[if j < i then j else j + 1];
      }
    }
  }

  lemma CreateTaskPreservesWf(tasks: seq<Task>, data: TaskData, newId: Id)
    requires Wf(tasks)
    requires CreateTask(tasks, data, newId).Ok?
    ensures Wf(CreateTask(tasks, data, newId).value.1)
  {
  }

  lemma UpdateTaskPreservesWf(tasks: seq<Task>, id: Id, data: TaskData)
    requires Wf(tasks)
    requires UpdateTask(tasks, id, data).Ok?
    ensures Wf(UpdateTask(tasks, id, data).value.1)
  {
  }

  lemma DeleteTaskPreservesWf(tasks: seq<Task>, id: Id)
    requires Wf(tasks)
    requires DeleteTask(tasks, id).Ok?
    ensures Wf(DeleteTask(tasks, id).value.1)
  {
    var i := FindIndex(tasks, WithId(id)).value;
    var tasks' := DeleteTask(tasks, id).value.1;
    forall a, b | 0 <= a < b < |tasks'| ensures tasks'[a].id != tasks'[b].id {
      assert tasks'[a] == tasks[if a < i then a else a + 1];
      assert tasks'[b] == tasks[if b < i then b else b + 1];
    }
  }
}

=== FILE: user_controller.dfy ===
/** The profile update of src/controllers/user.controller.ts. */
module UserController {
  import opened Wrappers
  import opened Oracles
  import opened Users
  import opened Http

  /** The uploaded profile image: none attached, its public URL, or a failed upload. */
  datatype Upload = NoFile | Uploaded(url: string) | UploadFailed

  /** `imageUrl || null` for the image URL the upload produced (`""` when none). */
  function StoredImage(file: Upload): Option<string>
    requires !file.UploadFailed?
  {
    if file.Uploaded? && file.url != "" then Some(file.url) else None
  }

  /**
   * `updateUser`: writes `name`, `email` (each only when given) and
   * `imageUrl` (always: the upload's URL, else null) to the caller's row and
   * to no other; 500 when the upload fails, the caller is unknown or the
   * email belongs to someone else, with nothing written.
   */
  function UpdateUser(users: seq<User>, userId: Option<Id>, name: Option<string>, email: Option<string>,
                      file: Upload): (r: Step<seq<User>>)
    ensures r.reply.status in {200, 500}
    ensures r.reply.status == 500 ==> r.store == users
    ensures !file.UploadFailed? && userId.Some? && FindById(users, userId.value).Some? && email.None? ==>
      r.reply.status == 200
    ensures !file.UploadFailed? && userId.Some? && FindById(users, userId.value).Some? && Wf(users) && email.Some? ==>
      (r.reply.status == 200 <==>
         forall j :: 0 <= j < |users| && users[j].id != userId.value ==> users[j].email != email.value)
    ensures r.reply.status == 200 ==>
      && !file.UploadFailed? && userId.Some? && FindById(users, userId.value).Some?
      && var prev := FindById(users, userId.value).value;
      && r.reply.body.UpdatedUser?
      && var u := r.reply.body.user;
      && FindById(r.store, userId.value) == Some(u)
      && u.id == prev.id && u.password == prev.password && u.role == prev.role
      && u.refreshToken == prev.refreshToken
      && u.name == (if name.Some? then name else prev.name)
      && u.email == (if email.Some? then email.value else prev.email)
      && u.imageUrl == (if file.Uploaded? && file.url != "" then Some(file.url) else None)
      && |r.store| == |users|
      && (forall j :: 0 <= j < |users| && users[j].id != userId.value ==> r.store[j] == users[j])
  {
    if file.UploadFailed? then Step(Error(500), users)
    else
      match userId
      case None => Step(Error(500), users)
      case Some(id) =>
        match Update(users, id, UserPatch(name, email, Some(StoredImage(file)), None))
        case Err(_) => Step(Error(500), users)
        case Ok((u, users')) => Step(Reply(200, UpdatedUser(u)), users')
  }

  /** A profile update without a file erases an image the user already had. */
  lemma UpdateWithoutFileClearsImage(users: seq<User>, userId: Id, name: Option<string>)
    requires FindById(users, userId).Some? && FindById(users, userId).value.imageUrl.Some?
    ensures var r := UpdateUser(users, Some(userId), name, None, NoFile);
      r.reply.status == 200 && FindById(r.store, userId).value.imageUrl.None?
  {
  }
}

=== FILE: user_routes.dfy ===
/**
 * The user router (src/routes/user.ts): its own sign-up and sign-in
 * handlers, and the gates in front of the user list and the profile update.
 */
module UserRoutes {
  import opened Wrappers
  import opened Oracles
  import opened JsValues
  import opened Users
  import opened Http
  import opened Credentials
  import BearerAuth
  import UserController

  const SessionAudience: string := "imanage-me-app"

  /** `SESSION_JWT_EXPIRATION || "4h"`, with audience and issuer "imanage-me-app". */
  function SessionOptions(expiration: Option<string>): SignOptions
  {
    SignOptions(if Present(expiration) then expiration.value else "4h", Some(SessionAudience), Some(SessionAudience))
  }

  /**
   * The payload `{ ...user }` once `password` is deleted: the row's own
   * columns, so the id travels as `id` and there is no `userId` claim.
   */
  function SessionClaims(u: User): Claims
  {
    NoClaims.(id := Some(u.id), email := Some(u.email), name := u.name, imageUrl := u.imageUrl,
              role := Some(u.role), refreshToken := u.refreshToken)
  }

  /**
   * `POST /sign-up`: 400 for a missing field or an email in use, with
   * nothing written; on success 201 and a reply holding only id, email, name.
   */
  function SignUp(users: seq<User>, email: Option<string>, password: Option<string>, name: Option<string>,
                  hasher: PasswordHasher, newId: Id): (r: Step<seq<User>>)
    ensures r.reply.status in {201, 400, 500}
    ensures r.reply.status == 201 <==>
      Present(email) && Present(password) && Present(name) && FindByEmail(users, email.value).None? && FindById(users, newId).None?
    ensures r.reply.status != 201 ==> r.store == users
    ensures r.reply.status == 400 <==>
      !Present(email) || !Present(password) || !Present(name) || FindByEmail(users, email.value).Some?
    ensures r.reply.status == 201 ==>
      && |r.store| == |users| + 1 && r.store[..|users|] == users
      && var u := r.store[|users|];
      && u == NewAccount(newId, email.value, password.value, name.value, hasher)
      && u.password == Some(hasher.hash(password.value)) && u.role == "user"
      && r.reply.body == Registered(u.id, email.value, name.value)
  {
    match Register(users, email, password, name, hasher, newId)
    case Err(status) => Step(Error(status), users)
    case Ok((u, users')) => Step(Reply(201, Registered(u.id, u.email, name.value)), users')
  }

  /**
   * `POST /sign-in`: 400, 404, 401 in that order (500 for an account
   * without a hash); on success a session token over the user's columns
   * except the password. The table is never written.
   */
  function SignIn(users: seq<User>, email: Option<string>, password: Option<string>, codec: TokenCodec,
                  hasher: PasswordHasher, expiration: Option<string>): (r: Step<seq<User>>)
    ensures r.store == users
    ensures r.reply.status in {200, 400, 401, 404, 500}
    ensures r.reply.status == 500 <==>
      && Present(email) && Present(password)
      && FindByEmail(users, email.value).Some?
      && FindByEmail(users, email.value).value.password.None?
    ensures r.reply.status == 401 <==>
      && Present(email) && Present(password)
      && FindByEmail(users, email.value).Some?
      && FindByEmail(users, email.value).value.password.Some?
      && !hasher.compare(password.value, FindByEmail(users, email.value).value.password.value)
    ensures r.reply.status == 200 <==>
      && Present(email) && Present(password)
      && FindByEmail(users, email.value).Some?
      && FindByEmail(users, email.value).value.password.Some?
      && hasher.compare(password.value, FindByEmail(users, email.value).value.password.value)
    ensures !Present(email) || !Present(password) ==> r.reply.status == 400
    ensures Present(email) && Present(password) && FindByEmail(users, email.value).None? ==> r.reply.status == 404
    ensures r.reply.status == 200 ==>
      && Present(email) && Present(password)
      && var u := FindByEmail(users, email.value).value;
      && u.password.Some? && hasher.compare(password.value, u.password.value)
      && r.reply.body == SignedIn(View(u), codec.sign(SessionClaims(u), SessionOptions(expiration)))
  {
    match CheckPassword(users, email, password, hasher, 500)
    case Err(status) => Step(Error(status), users)
    case Ok(u) => Step(Reply(200, SignedIn(View(u), codec.sign(SessionClaims(u), SessionOptions(expiration)))), users)
  }

  /** `GET /all` behind `isAuthAdmin`: every user row, to admins only. */
  function ListAll(users: seq<User>, authorization: Option<string>, codec: TokenCodec): (r: Step<seq<User>>)
    ensures r.store == users
    ensures r.reply.status == 200 <==> BearerAuth.IsAuthAdmin(authorization, codec).Proceed?
    ensures r.reply.status == 200 ==> r.reply.body == UserList(users)
  {
    match BearerAuth.IsAuthAdmin(authorization, codec)
    case Reject(status) => Step(Error(status), users)
    case Proceed(_) => Step(Reply(200, UserList(users)), users)
  }

  /** `PUT /profile` behind `isAuthUser`: the update runs for the caller the gate resolved. */
  function Profile(users: seq<User>, authorization: Option<string>, codec: TokenCodec,
                   name: Option<string>, email: Option<string>, file: UserController.Upload): (r: Step<seq<User>>)
    ensures BearerAuth.IsAuthUser(authorization, codec).Reject? ==>
      r == Step(Error(BearerAuth.IsAuthUser(authorization, codec).status), users)
    ensures BearerAuth.IsAuthUser(authorization, codec).Proceed? ==>
      r == UserController.UpdateUser(users, BearerAuth.IsAuthUser(authorization, codec).userId, name, email, file)
  {
    match BearerAuth.IsAuthUser(authorization, codec)
    case Reject(status) => Step(Error(status), users)
    case Proceed(userId) => UserController.UpdateUser(users, userId, name, email, file)
  }

  /**
   * The session token of a successful sign-in opens the user list exactly
   * when the user's role is "admin" (while the token verifies).
   */
  lemma SessionTokenAdminIffRole(users: seq<User>, u: User, codec: TokenCodec, expiration: Option<string>)
    requires Faithful(codec)
    requires codec.verify(codec.sign(SessionClaims(u), SessionOptions(expiration))).Some?
    ensures var token := codec.sign(SessionClaims(u), SessionOptions(expiration));
      ListAll(users, BearerAuth.BearerHeader(token), codec).reply.status == 200 <==> u.role == "admin"
  {
    BearerAuth.SignedTokenGates(codec, SessionClaims(u), SessionOptions(expiration));
  }

  /**
   * The session token passes `isAuthUser` but leaves `req.userId` unset, so
   * a profile update with it answers 500 and writes nothing.
   */
  lemma SessionTokenCannotUpdateProfile(users: seq<User>, u: User, codec: TokenCodec, expiration: Option<string>,
                                        name: Option<string>, email: Option<string>, file: UserController.Upload)
    requires Faithful(codec)
    requires codec.verify(codec.sign(SessionClaims(u), SessionOptions(expiration))).Some?
    ensures var token := codec.sign(SessionClaims(u), SessionOptions(expiration));
      && BearerAuth.IsAuthUser(BearerAuth.BearerHeader(token), codec) == Proceed(None)
      && Profile(users, BearerAuth.BearerHeader(token), codec, name, email, file) == Step(Error(500), users)
  {
    BearerAuth.SignedTokenGates(codec, SessionClaims(u), SessionOptions(expiration));
  }

  /** Whoever signs up through this router can then sign in with the same email and password. */
  lemma SignUpThenSignIn(users: seq<User>, email: string, password: string, name: string,
                         hasher: PasswordHasher, codec: TokenCodec, newId: Id, expiration: Option<string>)
    requires Consistent(hasher)
    requires SignUp(users, Some(email), Some(password), Some(name), hasher, newId).reply.status == 201
    ensures var users' := SignUp(users, Some(email), Some(password), Some(name), hasher, newId).store;
      SignIn(users', Some(email), Some(password), codec, hasher, expiration).reply.status == 200
  {
    Credentials.SignInAfterRegister(users, Some(email), Some(password), Some(name), hasher, newId, 500);
  }
}

=== FILE: users.dfy ===
/** The user table and the single-row queries the handlers issue against it. */
module Users {
  import opened Wrappers
  import opened Oracles
  import opened Rows

  /**
   * A user row. `password` holds a bcrypt hash and is `None` for accounts
   * created through Google; `refreshToken` is the one stored session token.
   */
  datatype User = User(
    id: Id,
    email: string,
    password: Option<string>,
    name: Option<string>,
    imageUrl: Option<string>,
    role: string,
    refreshToken: Option<string>)

  /** A user row with the `password` column taken out. */
  datatype UserView = UserView(
    id: Id,
    email: string,
    name: Option<string>,
    imageUrl: Option<string>,
    role: string,
    refreshToken: Option<string>)

  function View(u: User): UserView
  {
    UserView(u.id, u.email, u.name, u.imageUrl, u.role, u.refreshToken)
  }

  /** The role a row gets when the creating call does not name one. */
  const DefaultRole: string := "user"

  /** `id` and `email` are both unique columns. */
  ghost predicate Wf(users: seq<User>)
  {
    forall i, j :: 0 <= i < j < |users| ==> users[i].id != users[j].id && users[i].email != users[j].email
  }

  function WithId(id: Id): User -> bool
  {
    (u: User) => u.id == id
  }

  function WithEmail(email: string): User -> bool
  {
    (u: User) => u.email == email
  }

  /** `findUnique({ where: { id } })`. */
  function FindById(users: seq<User>, id: Id): (r: Option<User>)
    ensures r.Some? ==> r.value in users && r.value.id == id
    ensures r.None? <==> forall i :: 0 <= i < |users| ==> users[i].id != id
  {
    Find(users, WithId(id))
  }

  /** `findUnique({ where: { email } })`. */
  function FindByEmail(users: seq<User>, email: string): (r: Option<User>)
    ensures r.Some? ==> r.value in users && r.value.email == email
    ensures r.None? <==> forall i :: 0 <= i < |users| ==> users[i].email != email
  {
    Find(users, WithEmail(email))
  }

  /** In a table with unique ids, looking a row's id up finds that row. */
  lemma FindByIdOfMember(users: seq<User>, u: User)
    ensures Wf(users) && u in users ==> FindById(users, u.id) == Some(u)
  {
    if Wf(users) && u in users {
      var i :| 0 <= i < |users| && users[i] == u;
      var found := FindById(users, u.id).value;
      var j :| 0 <= j < |users| && users[j] == found;
      assert i == j;
    }
  }

  /** `user.create`: the row is appended unless its id or email is taken. */
  function Create(users: seq<User>, u: User): (r: Result<seq<User>, StoreError>)
    ensures r.Ok? <==> FindById(users, u.id).None? && FindByEmail(users, u.email).None?
    ensures r.Ok? ==> |r.value| == |users| + 1 && r.value[..|users|] == users && r.value[|users|] == u
    ensures r.Err? ==> r.error == UniqueViolation
  {
    if FindById(users, u.id).Some? || FindByEmail(users, u.email).Some? then Err(UniqueViolation)
    else Ok(users + [u])
  }

  /** Inserting a row keeps ids and emails unique. */
  lemma CreateWf(users: seq<User>, u: User)
    ensures Wf(users) && Create(users, u).Ok? ==> Wf(Create(users, u).value)
  {
  }

  /**
   * The `data` of a `user.update`: `None` leaves a column alone (an
   * `undefined` field); for the nullable columns `Some(None)` writes null.
   */
  datatype UserPatch = UserPatch(
    name: Option<string>,
    email: Option<string>,
    imageUrl: Option<Option<string>>,
    refreshToken: Option<Option<string>>)

  function Patched(u: User, patch: UserPatch): User
  {
    u.(name := if patch.name.Some? then patch.name else u.name,
       email := if patch.email.Some? then patch.email.value else u.email,
       imageUrl := if patch.imageUrl.Some? then patch.imageUrl.value else u.imageUrl,
       refreshToken := if patch.refreshToken.Some? then patch.refreshToken.value else u.refreshToken)
  }

  /** Whether a row other than the `i`-th already holds `email`. */
  predicate EmailHeldByOther(users: seq<User>, i: nat, email: string)
  {
    exists j | 0 <= j < |users| :: j != i && users[j].email == email
  }

  /**
   * `user.update({ where: { id }, data })`: the row with that id gets the
   * supplied columns; an unknown id, or an email another row holds, fails.
   */
  function Update(users: seq<User>, id: Id, patch: UserPatch): (r: Result<(User, seq<User>), StoreError>)
    ensures FindById(users, id).None? ==> r == Err(NotFound)
    ensures r.Err? ==> r.error == NotFound || (r.error == UniqueViolation && patch.email.Some?)
    ensures FindById(users, id).Some? && patch.email.None? ==> r.Ok?
    ensures Wf(users) && FindById(users, id).Some? && patch.email.Some? ==>
      (r.Ok? <==> forall j :: 0 <= j < |users| && users[j].id != id ==> users[j].email != patch.email.value)
    ensures r.Ok? ==> FindById(users, id).Some? && FindById(r.value.1, id) == Some(r.value.0)
    ensures r.Ok? ==> var (u, users') := r.value;
      var prev := FindById(users, id).value;
      && |users'| == |users|
      && u.id == id && u.password == prev.password && u.role == prev.role
      && u.name == (if patch.name.Some? then patch.name else prev.name)
      && u.email == (if patch.email.Some? then patch.email.value else prev.email)
      && u.imageUrl == (if patch.imageUrl.Some? then patch.imageUrl.value else prev.imageUrl)
      && u.refreshToken == (if patch.refreshToken.Some? then patch.refreshToken.value else prev.refreshToken)
      && (forall j :: 0 <= j < |users| && users[j].id != id ==> users'[j] == users[j])
  {
    match FindIndex(users, WithId(id))
    case None => Err(NotFound)
    case Some(i) =>
      var u := Patched(users[i], patch);
      if patch.email.Some? && EmailHeldByOther(users, i, patch.email.value) then Err(UniqueViolation)
      else
        FindIndexAfterReplace(users, WithId(id), i, u);
        Ok((u, users[i := u]))
  }

  lemma UpdatePreservesWf(users: seq<User>, id: Id, patch: UserPatch)
    requires Wf(users)
    requires Update(users, id, patch).Ok?
    ensures Wf(Update(users, id, patch).value.1)
  {
    var i := FindIndex(users, WithId(id)).value;
    var users' := Update(users, id, patch).value.1;
    forall a, b | 0 <= a < b < |users'|
      ensures users'[a].id != users'[b].id && users'[a].email != users'[b].email
    {
      if a == i || b == i {
        assert patch.email.Some? ==> !EmailHeldByOther(users, i, patch.email.value);
      }
    }
  }
}

=== FILE: wrappers.dfy ===
/** Failure-carrying wrappers shared by every module of the model. */
module Wrappers {

  /** A value that may be missing: JavaScript `undefined` (or `null`) is `None`. */
  datatype Option<+T> = None | Some(value: T)

  /** The outcome of a store call: a value, or the error the query engine raises. */
  datatype Result<+T, +E> = Ok(value: T) | Err(error: E)
}
